=== FILE: README.md ===
# StorageService, modelled in Dafny

This project models `StorageService`, the persistence layer of an Ionic news
reader. The service caches news articles per category with an expiry time,
keeps the reader's favorite articles and a small settings store, and picks one
of two backends once at startup:

- in a browser, in-memory `Map`s, with each category's news list mirrored to
  `localStorage` under `news_<category>`;
- on a device, three SQLite tables (`news`, `favorites`, `settings`) in the
  `ionic-news-db` database.

The whole service is one immutable `Store` record (module `Store`). It holds
the backend tag, the `isDbReady` flag, whether the SQLite connection is open,
the memory maps with their mirror, and the three tables. Every public method
is a pure function of a store, its arguments and, where the source reads the
clock, an explicit reading `now`. The calls that can change the state
(`cacheNews`, `getCachedNews`, `clearCache`, `saveFavorite`,
`removeFavorite`, `saveSettings`) return a `Step`: the new store and the value
the method resolves to. The read-only calls (`isFavorite`, `getFavorites`,
`getSettings`) return only their value, and initialization returns the new
store. Modules:

- `Wrappers`, `Seqs`, `Keyed`, `Sorting`: options, filtering, rows keyed by a
  column (`INSERT OR REPLACE`, `DELETE ... WHERE id = ?`, `Map.set`,
  `Map.delete`), and descending sorts with SQLite's BINARY text order.
- `Json`: setting values and the `JSON.stringify`/`JSON.parse` pair, given as
  a `Codec` parameter whose one law is that parsing undoes stringifying for
  every value JavaScript can hold (`JsValue`: distinct member names, index
  names first in ascending order, integers up to 2^53).
- `Records`: articles, cached rows, favorites, mirror snapshots, and the
  constants (60 000 ms per minute, 30 minutes by default).
- `Store`: the state, startup (`initializeDatabase`) and a process restart.
- `NewsCache`: `cacheNews`, `getCachedNews`, `removeExpiredNews`, `clearCache`.
- `Favorites`: `saveFavorite`, `removeFavorite`, `isFavorite`, `getFavorites`.
- `Settings`: `saveSettings`, `getSettings`.
- `NewsProperties`, `FavoritesProperties`: properties that relate several
  calls, including the places where the two backends answer differently.
- `Session`: a run of calls on one instance. It states the invariants every
  run keeps and the isolation between news, favorites and settings.

A SQLite call over a connection that never opened (`dbOpen` false) throws.
The method then takes its `catch` branch and returns its fallback value.
`removeExpiredNews` is the exception: it swallows its own error.

`removeExpiredNews` is private. Only the SQLite paths of `cacheNews` (line
157) and `getCachedNews` (line 237) call it, so its browser branch (lines
265-279) is modelled in `NewsCache.RemoveExpiredNews` but is not reached
from any public method, and `Session` has no call of its own for it.

Behaviours of the code worth knowing:

- In the browser neither `getCachedNews` nor `cacheNews` sweeps expired
  records. `getCachedNews` only filters them out of its answer
  (`NewsProperties.WebSportsScenario`).
- `clearCache` does not touch `localStorage` in the browser, so the next read
  restores the cleared category from its mirror
  (`NewsProperties.WebClearThenRestore`).
- On SQLite a setting saved as the string `"5"` reads back as the number 5.
  Its text parses as JSON (`Settings.SqliteStringSetting`).
- The two backends answer `getCachedNews` in different orders. The browser
  returns the records in the order of the category's list, which is the order
  of the batch that wrote it; SQLite returns them latest `publishedAt` first
  (`ORDER BY publishedAt DESC`, line 243 of
  src/app/services/storage.service.ts; `NewsCache.SqliteRead`).
- On a broken SQLite connection, `cacheNews` of a batch in which no article
  has a url returns `true`. The loop skips every article and never reaches the
  database (`NewsCache.CacheNews`).

## Model

| member | source | states |
|---|---|---|
| `Store.Initialize` | src/app/services/storage.service.ts:28-67 | `isDbReady` is set on every path, the error path included. A browser selects the memory backend. A device selects SQLite, usable exactly when opening the connection succeeded. A failing `platform.ready()` leaves `isWeb` as it was. Nothing but those fields changes. |
| `Store.Fresh` | src/app/services/storage.service.ts:11-22 | A new instance is not ready, has `isWeb` false, no usable connection and empty memory maps. It sees the `localStorage` and tables the device already holds. |
| `Store.Restart` | src/app/services/storage.service.ts:14-26 | A new process loses the memory maps and the readiness flag and keeps `localStorage` and the three tables. |
| `Records.Normalize` | src/app/services/storage.service.ts:173-186 | Column by column, the SQLite row of an article keeps each text the article has and holds `''` for each one it lacks (title, description, image url, publication date, content, author). It keeps the article's source, or `{}` when it has none, and keeps its url and category. |
| `Records.Stamp` | src/app/services/storage.service.ts:132-137 | A cached record carries the batch's category, `timestamp = now` and the batch's expiry. Apart from the category it is the article unchanged. |
| `Records.PublishedGeqIsPreorder` | src/app/services/storage.service.ts:243 | `ORDER BY publishedAt DESC` compares by a total, transitive order, so "sorted" is well defined. |
| `Sorting.SortDesc` | src/app/services/storage.service.ts:393 | Sorting returns a permutation of its input: the same multiset. |
| `Sorting.SortDescSorted` | src/app/services/storage.service.ts:393 | For any total preorder the sort's result is in descending order. |
| `Sorting.TextGeqTotal` | src/app/services/storage.service.ts:243 | Any two texts are comparable in the BINARY collation. |
| `Sorting.TextGeqTransitive` | src/app/services/storage.service.ts:243 | The BINARY collation's order is transitive. |
| `Keyed.Upsert` | src/app/services/storage.service.ts:159-163 | `INSERT OR REPLACE` on a primary key leaves exactly one row for the new key: the new row, looked up as the new row. Every other key keeps its rows and lookups. The table grows by one row, less the rows it replaced. |
| `Keyed.Without` | src/app/services/storage.service.ts:358 | `DELETE ... WHERE id = ?` removes exactly the rows with that key. Every other row stays, so lookups of other keys are unchanged and the length shrinks by the number of removed rows. |
| `Keyed.Assign` | src/app/services/storage.service.ts:312 | `Map.set` leaves one entry for the key, holding the new value. A new key adds one entry and an existing key keeps the map's size. Other keys are unchanged. |
| `NewsCache.RemoveExpiredNews` | src/app/services/storage.service.ts:263-294 | On SQLite the sweep deletes exactly the rows with `expiration < now` in the given category, or in every category when none (or `''`) is given; every other row stays as many times as it was there. It never adds rows for a url. In the browser it keeps exactly the records with `expiration > now`, of the category or of all, each as many times as before. A broken connection changes nothing. |
| `NewsCache.KeepUnexpired` | src/app/services/storage.service.ts:267-268 | `filter(item => item.expiration > now)` keeps exactly the records with `expiration > now`, each as many times as it occurs. |
| `NewsCache.SweepMap` | src/app/services/storage.service.ts:271-275 | The sweep over every browser category keeps the same categories and filters each list as above. |
| `NewsCache.SweepTable` | src/app/services/storage.service.ts:281-290 | The `DELETE` removes every copy of the rows of the scope that expired before `now` and keeps every other row as many times as it was there, so no url gains rows. |
| `NewsCache.LastKeyed` | src/app/services/storage.service.ts:167-189 | The article whose row a batch leaves for url `k` is the last article of the batch with that (non-empty) url. There is none exactly when no article of the batch has url `k`. |
| `NewsCache.StoreBatch` | src/app/services/storage.service.ts:167-189 | After the insert loop each url of the batch has exactly one row: the row of its last article. Urls outside the batch keep their rows. Articles without url are skipped and add nothing. |
| `NewsCache.CacheNews` | src/app/services/storage.service.ts:116-197 | An empty list returns false and changes nothing. Otherwise the call succeeds when the backend is usable, or, over a broken connection, when no article has a url; an unusable backend changes nothing. In the browser the category's list is replaced by the stamped batch in input order, the other categories are kept, and the mirror is written only if `localStorage` accepted it, the call returning true either way. On SQLite the category is swept first, then each url of the batch ends with one row, that of its last article, and every other url keeps its swept rows. |
| `NewsCache.CacheNewsDefault` | src/app/services/storage.service.ts:116-129 | Without `expirationMinutes` every written record expires 30 minutes (1 800 000 ms) after `now`. |
| `NewsCache.WebRead` | src/app/services/storage.service.ts:209-234 | The browser answers with the category's records that have `expiration > now`, each as many times as the list holds it, without sweeping. An empty memory list is first restored from an unexpired mirror snapshot. Otherwise the answer is `[]`. |
| `NewsCache.SqliteRead` | src/app/services/storage.service.ts:236-260 | SQLite first sweeps the category. It then returns exactly the category's rows with `expiration > now` (as a multiset, so no row is lost or duplicated), latest `publishedAt` first. A broken connection gives `[]`. |
| `NewsCache.GetCachedNews` | src/app/services/storage.service.ts:199-261 | On either backend every returned record has `expiration > now`, and only the news state can change. In the browser a non-empty memory list is returned filtered, each record as many times as the list holds it; an empty one is first replaced by the data of an unexpired mirror snapshot, which is returned filtered the same way, and otherwise the answer is `[]`. On SQLite the answer is exactly the category's unexpired rows (as a multiset), latest `publishedAt` first, and the table afterwards has lost exactly the rows that expired before `now` in the category (in every category for `''`); a broken connection gives `[]` and changes nothing. |
| `NewsCache.ClearCache` | src/app/services/storage.service.ts:472-491 | Every cached article goes, in every category. Nothing else changes, the browser's mirror included. A broken connection returns false and changes nothing. |
| `NewsProperties.SqliteBatchUpserts` | src/app/services/storage.service.ts:159-192 | A SQLite batch returns true and leaves exactly one row per url of the batch, carrying the batch's category, write time and expiry, whatever category the url had before. Rows without url are never added. |
| `NewsProperties.SqliteReadAfterWrite` | src/app/services/storage.service.ts:156-256 | A row just written on SQLite is read back exactly while the read time is before its expiry. |
| `NewsProperties.WebReadAfterWrite` | src/app/services/storage.service.ts:131-233 | A record just written in the browser is read back exactly while the read time is before its expiry. |
| `NewsProperties.DuplicateBatchDiverges` | src/app/services/storage.service.ts:131-189 | A batch holding one article twice is kept and read back twice in the browser, while SQLite keeps one row for its url. |
| `NewsProperties.WebBatchReplacesList` | src/app/services/storage.service.ts:131-153 | In the browser a batch removes every earlier record of its category and leaves the other categories' lists as they were. |
| `NewsProperties.SqliteBoundaryRowSurvivesHidden` | src/app/services/storage.service.ts:239-290 | On SQLite a row with `expiration == now` survives the sweep, with or without a category, and is hidden from the read. |
| `NewsProperties.WebBoundaryRowSwept` | src/app/services/storage.service.ts:265-279 | The browser's sweep drops that same boundary record. No public method runs that branch. |
| `NewsProperties.SqliteClearEmptiesReads` | src/app/services/storage.service.ts:472-491 | After `clearCache` SQLite reads nothing, for any category and time. |
| `NewsProperties.WebClearThenRestore` | src/app/services/storage.service.ts:212-230 | After `clearCache` the browser's memory is empty, but the next read returns the unexpired records of an unexpired mirror snapshot. |
| `NewsProperties.WebBatchSurvivesRestart` | src/app/services/storage.service.ts:142-230 | A batch mirrored to `localStorage` is read back in full by a restarted process until it expires. |
| `NewsProperties.LastKeyedIsLast` | src/app/services/storage.service.ts:167-189 | An article whose url no later article repeats is the one whose row the batch leaves. |
| `NewsProperties.FreshBatchRows` | src/app/services/storage.service.ts:167-189 | A batch of distinct urls written to an empty table leaves exactly one row per article, and no other row. |
| `NewsProperties.SqliteSportsScenario` | src/app/services/storage.service.ts:116-261 | Three distinct articles cached for "sports" with a one-minute lifetime at time 0 are exactly what is read at 30 s. At 61 s the read is empty and no "sports" row is left in the table. |
| `NewsProperties.WebSportsScenario` | src/app/services/storage.service.ts:131-233 | The same batch in the browser: three records are read at 30 s and none at 61 s, while the memory list still holds all three. |
| `Favorites.InsertFavorite` | src/app/services/storage.service.ts:317-337 | `INSERT OR REPLACE INTO favorites` keeps one row per present url. A favorite without url gets a NULL id: its row is always added, because NULL ids never conflict, and every earlier row stays (the table's multiset grows by exactly that row). |
| `Favorites.SaveFavorite` | src/app/services/storage.service.ts:296-344 | A save succeeds exactly when the backend is usable and, on SQLite, the article has a title (`title NOT NULL`). A failed save changes nothing. The saved url then looks up the article with `timestamp = now`, and every other url is unchanged. On SQLite an article without url adds exactly the row `Favorite(a, now)` and keeps every earlier row. |
| `Favorites.RemoveFavorite` | src/app/services/storage.service.ts:346-365 | Afterwards no favorite has that url and every other favorite is still there. The browser answers whether the url was present. SQLite answers true whenever its connection works. |
| `Favorites.IsFavorite` | src/app/services/storage.service.ts:367-383 | `isFavorite(id)` holds exactly when a visible favorite has url `id`. |
| `Favorites.GetFavorites` | src/app/services/storage.service.ts:385-410 | `getFavorites` returns exactly the visible favorites, as a multiset, newest save first. |
| `FavoritesProperties.SaveThenIsFavorite` | src/app/services/storage.service.ts:296-383 | After a successful `saveFavorite(a)`, `isFavorite(a.url)` is true. |
| `FavoritesProperties.SaveTwiceKeepsOne` | src/app/services/storage.service.ts:305-337 | Saving an article twice leaves one entry for its url, with the second timestamp, and no more entries than after the first save. |
| `FavoritesProperties.RemoveThenNotFavorite` | src/app/services/storage.service.ts:346-383 | After `removeFavorite(id)`, `isFavorite(id)` is false on either backend. |
| `FavoritesProperties.RemoveFavoriteDivergence` | src/app/services/storage.service.ts:353-360 | A second removal of the same id answers false in the browser and true on SQLite. |
| `FavoritesProperties.UnkeyedFavoritesDiverge` | src/app/services/storage.service.ts:303-337 | An article without url saved twice gives one entry in the browser (key `undefined`). On SQLite it adds exactly two rows, the article with the first and with the second timestamp, and keeps every earlier row. |
| `FavoritesProperties.UntitledFavorite` | src/app/services/storage.service.ts:317-343 | SQLite refuses an untitled favorite and keeps its table. The browser stores it. |
| `Settings.SaveSettings` | src/app/services/storage.service.ts:412-430 | A save succeeds exactly when the backend is usable and changes only that id. The browser keeps the value. SQLite keeps its text: a string as itself, anything else stringified. |
| `Settings.GetSettings` | src/app/services/storage.service.ts:432-459 | In the browser a stored truthy value reads back and a falsy or missing one reads back as `null`. On SQLite the stored text is decoded. A missing id or a broken connection gives `null`. |
| `Settings.WebSettingsRoundTrip` | src/app/services/storage.service.ts:418-440 | In the browser a saved value reads back if it is truthy. `0`, `false`, `''` and `null` read back as `null`. |
| `Settings.SqliteSettingsRoundTrip` | src/app/services/storage.service.ts:423-448 | On SQLite every non-string value a JavaScript program can hold, objects included, reads back as saved. |
| `Settings.SqliteStringSetting` | src/app/services/storage.service.ts:423-451 | On SQLite a string that is not JSON text reads back as stored. One that is JSON text reads back parsed, so `"5"` reads back as 5. |
| `Settings.SettingsLastWriteWins` | src/app/services/storage.service.ts:418-424 | A second save to an id hides the first. A save never changes what another id reads. |
| `Session.Apply` | src/app/services/storage.service.ts:461-470 | Every call leaves the service ready. Only initialization changes the backend or the connection. |
| `Session.Run` | src/app/services/storage.service.ts:11-65 | `isDbReady` latches: once it is set, no later call clears it. |
| `Session.FirstStart` | src/app/services/storage.service.ts:11-22 | A first start on an empty device is not ready and satisfies every table invariant. |
| `Session.ApplyPreserves` | src/app/services/storage.service.ts:116-491 | Every call keeps the invariants: at most one news row per url and only rows with a url, at most one memory favorite per key, at most one favorite row per non-null id. |
| `Session.RunPreserves` | src/app/services/storage.service.ts:116-491 | Every run of calls keeps those invariants. |
| `Session.CacheNewsPreserves` | src/app/services/storage.service.ts:156-189 | `cacheNews` keeps one row per url, and only rows with a url, in the news table. |
| `Session.RemoveExpiredPreserves` | src/app/services/storage.service.ts:281-290 | The sweep keeps the news table's invariants. |
| `Session.SaveFavoritePreserves` | src/app/services/storage.service.ts:305-337 | `saveFavorite` keeps one favorite per key. |
| `Session.RemoveFavoritePreserves` | src/app/services/storage.service.ts:352-360 | `removeFavorite` keeps one favorite per key. |
| `Session.NewsOpsIsolated` | src/app/services/storage.service.ts:116-294 | The news calls, `clearCache` included, leave every favorites answer and every setting unchanged. |
| `Session.OtherOpsKeepNews` | src/app/services/storage.service.ts:296-430 | The favorites and settings calls leave every news read unchanged. |
| `Session.FavoritesSettingsIsolated` | src/app/services/storage.service.ts:296-430 | Favorites calls leave the settings unchanged, and settings calls leave the favorites unchanged. |

## Left out

- The Capacitor SQLite plugin (`createConnection`, `retrieveConnection`, `open`, `execute`, `run`, `query`) and the SQL text are foreign calls. The tables are sequences of rows and a map, and the outcome of connecting is the `Native(connected)` probe.
- Platform detection (`platform.ready`, `platform.is`) is the `Probe` given to `Initialize`.
- `waitForDbReady` polls a timer. It is modelled as the precondition that the store is ready, and `Session.Run` only lets a run start unready with the initialization.
- The clock (`new Date().getTime()`) is the `now` argument.
- Whether `localStorage.setItem` succeeds is the `mirrorWritten` argument.
- `console` logging has no effect on the state and is left out.
- `JSON.stringify`/`JSON.parse` of an article's `source` (lines 183, 251, 309, 333, 401) is treated as the identity on an opaque value.
- The real `localStorage` text is not modelled. A snapshot that does not parse is `None`.
- Settings values are `null`, booleans, integers, strings and objects. Fractions, `NaN`, arrays and `undefined` are not modelled.
- `Json.Value` can describe objects no JavaScript program can build: a repeated member name, or array-index names (`"0"`, `"1"`, ...) out of JavaScript's key order, and integers beyond 2^53. The codec law `Json.Lawful` and `Settings.SqliteSettingsRoundTrip` cover only the values `Json.JsValue` admits, the ones JavaScript can hold.
- `Session.Apply`, `Session.Run`: calls are modelled as running one after another, each to completion. In the source every method is `async` and yields at each `await` (for example lines 157, 188, 237 and 358), so calls that are not awaited in turn interleave: two SQLite `cacheNews` calls sharing a url can interleave their `INSERT OR REPLACE`s, so the surviving row depends on scheduling, and a `getCachedNews` can see a half-written batch. The model states nothing about such interleavings.
- A `null` or `undefined` news list is the empty sequence, which the source treats the same way.
- A statement failing on a connection that did open (disk full, a locked database, `createTables` failing after `open`) is not modelled separately. Any failed startup step is a connection that is not usable.
- The order among rows with equal `publishedAt` is unspecified in SQLite. The model fixes one order and states only the descending order and the permutation.
- `NewsCache.CacheNews`: the browser branch is not given an error path. The method-wide `catch` (lines 193-196), which the SQLite branch shares, is reached there only by a throw, and with an array argument nothing in the browser branch throws.
- `NewsCache.CacheNews`: lifetimes are whole minutes (`minutes: int`). `expirationMinutes` is a JavaScript number (line 116), so a fractional lifetime such as `0.5` (30 000 ms) is accepted by the source but cannot be expressed here.
- `NewsCache.CacheNews`: the source reads the clock at line 128 and reads it again inside the sweep (line 281). The model uses one reading `now` for both, as if both fell in the same millisecond; a row that expires between the two readings is swept by the source but kept by the model.
- `NewsCache.SqliteRead`: the read's clock (line 206) and the sweep's clock (line 281) are one reading `now` in the model. `NewsCache.GetCachedNews` and `NewsProperties.SqliteBoundaryRowSurvivesHidden` inherit this: a row with `expiration == now` survives the sweep only when the second reading falls in the same millisecond as the first.
- No network-aware fetch, debounce or online/offline layer exists in this code; `src/app/folder/folder.page.ts` calls the news API directly.
- The other files of the application are not part of this model: `newsapi.service.ts` builds HTTP URLs; the login, registration, favorites and folder pages, the news card, `app.component.ts`, `auth.guard.ts`, `firebase.ts` and `notification.util.ts` are UI glue or SDK wiring.

=== FILE: favorites.dfy ===
/** The favorites of `StorageService`: `saveFavorite`, `removeFavorite`,
    `isFavorite` and `getFavorites`. Favorites are keyed by the article's url
    and never expire. */
module Favorites {
  import opened Wrappers
  import opened Keyed
  import opened Sorting
  import opened Records
  import opened Store

  /** The favorites the active backend can see: the memory map in the browser,
      the `favorites` table on SQLite, nothing over a broken connection. */
  function Visible(st: Store): seq<Favorite> {
    match st.backend
    case Web => st.memFavorites
    case Sqlite => if st.dbOpen then st.favoritesTable else []
  }

  /** The `favorites` table's key discipline. Its `id TEXT PRIMARY KEY`
      admits NULL (an article without url) and NULLs never conflict, so only
      present ids are unique. */
  ghost predicate SqlKeyUnique(rows: seq<Favorite>) {
    forall u :: Count(rows, FavoriteKey, Some(u)) <= 1
  }

  /** `INSERT OR REPLACE INTO favorites`: a row with a NULL id is always added. */
  function InsertFavorite(rows: seq<Favorite>, f: Favorite): (r: seq<Favorite>)
    ensures forall u :: Lookup(r, FavoriteKey, Some(u)) == if FavoriteKey(f) == Some(u) then Some(f) else Lookup(rows, FavoriteKey, Some(u))
    ensures forall u :: Count(r, FavoriteKey, Some(u)) == if FavoriteKey(f) == Some(u) then 1 else Count(rows, FavoriteKey, Some(u))
    ensures FavoriteKey(f).None? ==> |r| == |rows| + 1 && Count(r, FavoriteKey, None) == Count(rows, FavoriteKey, None) + 1
    ensures FavoriteKey(f).None? ==> multiset(r) == multiset(rows) + multiset{f}
    ensures f in r
  {
    if FavoriteKey(f).None? then
      UpsertFacts(rows, FavoriteKey, f);
      rows + [f]
    else Upsert(rows, FavoriteKey, f)
  }

  /** `saveFavorite(news)` at time `now`. The SQLite insert fails on a missing
      title (`title TEXT NOT NULL`), and then nothing changes. */
  function SaveFavorite(st: Store, a: Article, now: int): (r: Step<bool>)
    requires st.ready
    ensures r.result <==> Usable(st) && (st.backend == Web || a.title.Some?)
    ensures !r.result ==> r.store == st
    ensures st.backend == Web ==>
      && r.store == st.(memFavorites := r.store.memFavorites)
      && (forall k :: Lookup(r.store.memFavorites, FavoriteKey, k) == if k == a.url then Some(Favorite(a, now)) else Lookup(st.memFavorites, FavoriteKey, k))
      && (forall k :: Count(r.store.memFavorites, FavoriteKey, k) == if k != a.url then Count(st.memFavorites, FavoriteKey, k)
                                                                  else if Count(st.memFavorites, FavoriteKey, k) == 0 then 1
                                                                  else Count(st.memFavorites, FavoriteKey, k))
    ensures st.backend == Sqlite && r.result ==>
      && r.store == st.(favoritesTable := r.store.favoritesTable)
      && (forall u :: Lookup(r.store.favoritesTable, FavoriteKey, Some(u)) == if a.url == Some(u) then Some(Favorite(a, now)) else Lookup(st.favoritesTable, FavoriteKey, Some(u)))
      && (forall u :: Count(r.store.favoritesTable, FavoriteKey, Some(u)) == if a.url == Some(u) then 1 else Count(st.favoritesTable, FavoriteKey, Some(u)))
      && (a.url.None? ==> |r.store.favoritesTable| == |st.favoritesTable| + 1)
      && (a.url.None? ==> multiset(r.store.favoritesTable) == multiset(st.favoritesTable) + multiset{Favorite(a, now)})
  {
    var f := Favorite(a, now);
    match st.backend
    case Web => Step(st.(memFavorites := Assign(st.memFavorites, FavoriteKey, f)), true)
    case Sqlite =>
      if !st.dbOpen || a.title.None? then Step(st, false)
      else Step(st.(favoritesTable := InsertFavorite(st.favoritesTable, f)), true)
  }

  /** `removeFavorite(id)`. The browser backend answers whether the id was
      there (`Map.prototype.delete`); SQLite answers `true` whether or not a
      row was deleted. */
  function RemoveFavorite(st: Store, id: string): (r: Step<bool>)
    requires st.ready
    ensures st.backend == Web ==> (r.result <==> exists f :: f in st.memFavorites && FavoriteKey(f) == Some(id))
    ensures st.backend == Sqlite ==> (r.result <==> st.dbOpen)
    ensures !Usable(st) ==> r.store == st
    ensures forall f :: f in Visible(r.store) ==> f in Visible(st) && FavoriteKey(f) != Some(id)
    ensures forall f :: f in Visible(st) && FavoriteKey(f) != Some(id) ==> f in Visible(r.store)
    ensures forall k :: Lookup(Visible(r.store), FavoriteKey, k) == if k == Some(id) then None else Lookup(Visible(st), FavoriteKey, k)
    ensures st.backend == Web ==> r.store == st.(memFavorites := r.store.memFavorites)
    ensures st.backend == Sqlite ==> r.store == st.(favoritesTable := r.store.favoritesTable)
  {
    match st.backend
    case Web =>
      Step(st.(memFavorites := Without(st.memFavorites, FavoriteKey, Some(id))), Has(st.memFavorites, FavoriteKey, Some(id)))
    case Sqlite =>
      if !st.dbOpen then Step(st, false)
      else Step(st.(favoritesTable := Without(st.favoritesTable, FavoriteKey, Some(id))), true)
  }

  /** `isFavorite(id)`: whether the active backend holds a favorite with url `id`. */
  function IsFavorite(st: Store, id: string): (b: bool)
    requires st.ready
    ensures b <==> exists f :: f in Visible(st) && FavoriteKey(f) == Some(id)
  {
    Has(Visible(st), FavoriteKey, Some(id))
  }

  /** `getFavorites()`: every visible favorite, newest save first. */
  function GetFavorites(st: Store): (r: seq<Favorite>)
    requires st.ready
    ensures multiset(r) == multiset(Visible(st))
    ensures SortedDesc(r, SavedGeq)
  {
    SavedGeqIsPreorder();
    SortDescSorted(Visible(st), SavedGeq);
    SortDesc(Visible(st), SavedGeq)
  }
}

=== FILE: favorites_props.dfy ===
/** What the favorites operations promise when combined: save then check,
    save twice, remove then check, and the places where the two backends give
    different answers for the same calls. */
module FavoritesProperties {
  import opened Wrappers
  import opened Keyed
  import opened Records
  import opened Store
  import opened Favorites

  /** After a successful `saveFavorite(a)`, `isFavorite(a.url)` is true. */
  lemma SaveThenIsFavorite(st: Store, a: Article, now: int, id: string)
    requires st.ready && a.url == Some(id)
    requires SaveFavorite(st, a, now).result
    ensures IsFavorite(SaveFavorite(st, a, now).store, id)
  {
    var saved := SaveFavorite(st, a, now).store;
    assert Lookup(Visible(saved), FavoriteKey, Some(id)) == Some(Favorite(a, now));
  }

  /** Saving the same article twice leaves one entry for its url, holding the
      second save's timestamp, and no more entries than one save. */
  lemma SaveTwiceKeepsOne(st: Store, a: Article, t1: int, t2: int, id: string)
    requires st.ready && Usable(st) && a.title.Some? && a.url == Some(id)
    requires Count(Visible(st), FavoriteKey, Some(id)) <= 1
    ensures var once := SaveFavorite(st, a, t1).store;
            var twice := SaveFavorite(once, a, t2).store;
            && Count(Visible(twice), FavoriteKey, Some(id)) == 1
            && Lookup(Visible(twice), FavoriteKey, Some(id)) == Some(Favorite(a, t2))
            && |Visible(twice)| == |Visible(once)|
  {
    var once := SaveFavorite(st, a, t1).store;
    var twice := SaveFavorite(once, a, t2).store;
    assert Count(Visible(once), FavoriteKey, Some(id)) == 1;
    match st.backend
    case Web =>
      assert Visible(twice) == Assign(once.memFavorites, FavoriteKey, Favorite(a, t2));
    case Sqlite =>
      assert Visible(twice) == Upsert(once.favoritesTable, FavoriteKey, Favorite(a, t2));
  }

  /** After `removeFavorite(id)`, `isFavorite(id)` is false, whatever the
      backend and whether or not the call succeeded. */
  lemma RemoveThenNotFavorite(st: Store, id: string)
    requires st.ready
    ensures !IsFavorite(RemoveFavorite(st, id).store, id)
  {
  }

  /** Removing an id twice: the browser's second answer is `false`, SQLite's
      is `true`. */
  lemma RemoveFavoriteDivergence(st: Store, id: string)
    requires st.ready && Usable(st)
    ensures var once := RemoveFavorite(st, id).store;
            RemoveFavorite(once, id).result <==> st.backend == Sqlite
  {
  }

  /** An article without url: the browser keeps a single entry for it under
      the key `undefined`, while SQLite adds a new NULL-id row on each save,
      holding that save's timestamp, and keeps every earlier row. */
  lemma UnkeyedFavoritesDiverge(st: Store, a: Article, t1: int, t2: int)
    requires st.ready && Usable(st) && a.title.Some? && a.url.None?
    requires Count(Visible(st), FavoriteKey, None) == 0
    ensures var twice := SaveFavorite(SaveFavorite(st, a, t1).store, a, t2).store;
            st.backend == Web ==> Count(Visible(twice), FavoriteKey, None) == 1
    ensures var twice := SaveFavorite(SaveFavorite(st, a, t1).store, a, t2).store;
            st.backend == Sqlite ==> |Visible(twice)| == |Visible(st)| + 2
    ensures var twice := SaveFavorite(SaveFavorite(st, a, t1).store, a, t2).store;
            st.backend == Sqlite ==>
              multiset(Visible(twice)) == multiset(Visible(st)) + multiset{Favorite(a, t1), Favorite(a, t2)}
  {
    var once := SaveFavorite(st, a, t1).store;
    if st.backend == Web {
      assert Count(Visible(once), FavoriteKey, None) == 1;
    } else {
      SqliteUnkeyedSave(st, a, t1);
      SqliteUnkeyedSave(once, a, t2);
    }
  }

  /** One SQLite save of an article without url: exactly its row is added. */
  lemma SqliteUnkeyedSave(st: Store, a: Article, t: int)
    requires st.ready && st.backend == Sqlite && st.dbOpen && a.title.Some? && a.url.None?
    ensures var saved := SaveFavorite(st, a, t).store;
            && saved.ready && saved.backend == Sqlite && saved.dbOpen
            && |Visible(saved)| == |Visible(st)| + 1
            && multiset(Visible(saved)) == multiset(Visible(st)) + multiset{Favorite(a, t)}
  {
  }

  /** SQLite refuses a favorite without title and leaves the table as it was;
      the browser stores it. */
  lemma UntitledFavorite(st: Store, a: Article, now: int)
    requires st.ready && Usable(st) && a.title.None?
    ensures SaveFavorite(st, a, now).result <==> st.backend == Web
    ensures st.backend == Sqlite ==> Visible(SaveFavorite(st, a, now).store) == Visible(st)
  {
  }
}

=== FILE: json.dfy ===
/** The JavaScript values a setting can hold, and the two JSON functions the
    SQLite backend uses to store them as text. `JSON.stringify` and
    `JSON.parse` belong to the runtime, so they enter the model as a `Codec`
    parameter; the one fact the model relies on is that parsing undoes
    stringifying for every value JavaScript can hold. */
module Json {
  import opened Wrappers

  /** Numbers are integers here; `NaN`, infinities and fractions are not modelled. */
  datatype Value =
    | Null
    | Bool(b: bool)
    | Num(n: int)
    | Str(s: string)
    | Obj(members: seq<Member>)

  datatype Member = Member(name: string, value: Value)

  datatype Codec = Codec(stringify: Value -> string, parse: string -> Option<Value>)

  /** Largest magnitude up to which every integer is a JavaScript number. */
  const MaxExactInteger := 0x20_0000_0000_0000

  /** `v` is the shape of a value JavaScript can hold: integers a `number`
      represents exactly, and objects whose member names are distinct and
      whose array-index names (`"0"`, `"1"`, ...) come first, in ascending
      order, as JavaScript orders an object's own keys. */
  ghost predicate JsValue(v: Value) {
    match v
    case Num(n) => -MaxExactInteger <= n <= MaxExactInteger
    case Obj(ms) =>
      && (forall i, j :: 0 <= i < j < |ms| ==> ms[i].name != ms[j].name)
      && (forall i, j :: 0 <= i < j < |ms| && IndexName(ms[j].name) ==>
            IndexName(ms[i].name) && DigitsValue(ms[i].name) < DigitsValue(ms[j].name))
      && forall i :: 0 <= i < |ms| ==> JsValue(ms[i].value)
    case _ => true
  }

  predicate Digits(s: string) {
    forall i :: 0 <= i < |s| ==> '0' <= s[i] <= '9'
  }

  /** The number a string of decimal digits denotes. */
  function DigitsValue(s: string): nat
    decreases |s|
  {
    if |s| == 0 || !Digits(s) then 0
    else DigitsValue(s[..|s| - 1]) * 10 + (s[|s| - 1] as int - '0' as int)
  }

  /** An array-index property name: the canonical decimal text of an integer
      below 2^32 - 1. */
  predicate IndexName(s: string) {
    && |s| > 0 && Digits(s)
    && (s == "0" || s[0] != '0')
    && DigitsValue(s) < 0xFFFF_FFFF
  }

  /** `JSON.parse(JSON.stringify(v))` gives `v` back, for every value
      JavaScript can hold. */
  ghost predicate Lawful(c: Codec) {
    forall v :: JsValue(v) ==> c.parse(c.stringify(v)) == Some(v)
  }

  /** Example for `JsValue`: an object with a repeated member name is no
      JavaScript value, since an object holds one property per name and
      `JSON.parse` keeps the last. */
  lemma RepeatedNameIsNoJsValue()
    ensures !JsValue(Obj([Member("a", Num(1)), Member("a", Num(2))]))
  {
    var ms := [Member("a", Num(1)), Member("a", Num(2))];
    assert ms[0].name == ms[1].name;
  }

  /** Example for `JsValue`: index names come before other names, in
      ascending order, so `{"b": 1, "1": 2}` is no JavaScript object, while
      `{"1": 2, "b": 1}` is. */
  lemma IndexNamesFirst()
    ensures !JsValue(Obj([Member("b", Num(1)), Member("1", Num(2))]))
    ensures JsValue(Obj([Member("1", Num(2)), Member("b", Num(1))]))
  {
    var bad := [Member("b", Num(1)), Member("1", Num(2))];
    assert IndexName(bad[1].name) && !IndexName(bad[0].name);
    var good := [Member("1", Num(2)), Member("b", Num(1))];
    assert !IndexName(good[1].name);
  }

  /** JavaScript truthiness (the test behind `x || y`): `null`, `false`, `0` and
      `''` are falsy, every object is truthy. */
  predicate Truthy(v: Value) {
    match v
    case Null => false
    case Bool(b) => b
    case Num(n) => n != 0
    case Str(s) => s != ""
    case Obj(_) => true
  }
}

=== FILE: keyed.dfy ===
/** Sequences of rows identified by a key, with the two write disciplines the
    store relies on: SQLite's `INSERT OR REPLACE` (delete the conflicting row,
    append the new one) and JavaScript's `Map.prototype.set` (overwrite the
    entry in place, or append a new one). Row order is kept because it is
    what breaks ties when the rows are later sorted. */
module Keyed {
  import opened Wrappers
  import opened Seqs

  /** Number of rows whose key is `k`. */
  function Count<T, K(==)>(rows: seq<T>, key: T -> K, k: K): (n: nat)
    ensures n == 0 <==> forall x :: x in rows ==> key(x) != k
    ensures n <= |rows|
  {
    if rows == [] then 0
    else
      assert forall x :: x in rows ==> x == rows[0] || x in rows[1..];
      (if key(rows[0]) == k then 1 else 0) + Count(rows[1..], key, k)
  }

  /** At most one row per key: the primary-key discipline. */
  ghost predicate KeyUnique<T, K(!new)>(rows: seq<T>, key: T -> K) {
    forall k :: Count(rows, key, k) <= 1
  }

  /** The first row whose key is `k`, if any. */
  function Lookup<T, K(==)>(rows: seq<T>, key: T -> K, k: K): (r: Option<T>)
    ensures r.Some? ==> r.value in rows && key(r.value) == k
    ensures r.None? <==> Count(rows, key, k) == 0
  {
    if rows == [] then None
    else if key(rows[0]) == k then Some(rows[0])
    else Lookup(rows[1..], key, k)
  }

  /** Whether some row has key `k`. */
  predicate Has<T, K(==)>(rows: seq<T>, key: T -> K, k: K) {
    Lookup(rows, key, k).Some?
  }

  lemma {:induction false} CountAppend<T, K>(a: seq<T>, b: seq<T>, key: T -> K, k: K)
    ensures Count(a + b, key, k) == Count(a, key, k) + Count(b, key, k)
  {
    if a != [] {
      assert (a + b)[1..] == a[1..] + b;
      CountAppend(a[1..], b, key, k);
    } else {
      assert a + b == b;
    }
  }

  lemma {:induction false} LookupAppend<T, K>(a: seq<T>, b: seq<T>, key: T -> K, k: K)
    ensures Lookup(a + b, key, k) == if Lookup(a, key, k).Some? then Lookup(a, key, k) else Lookup(b, key, k)
  {
    if a != [] {
      assert (a + b)[1..] == a[1..] + b;
      LookupAppend(a[1..], b, key, k);
    } else {
      assert a + b == b;
    }
  }

  /** Filtering never adds rows of a key; it keeps all of them when all pass,
      and none when none pass. */
  lemma {:induction false} CountFilter<T, K>(rows: seq<T>, key: T -> K, p: T -> bool, k: K)
    ensures Count(Filter(rows, p), key, k) <= Count(rows, key, k)
    ensures (forall x :: x in rows && key(x) == k ==> p(x)) ==> Count(Filter(rows, p), key, k) == Count(rows, key, k)
    ensures (forall x :: x in rows && key(x) == k ==> !p(x)) ==> Count(Filter(rows, p), key, k) == 0
  {
    if rows != [] {
      var rest := rows[1..];
      assert forall x :: x in rest ==> x in rows;
      CountFilter(rest, key, p, k);
      if p(rows[0]) {
        CountAppend([rows[0]], Filter(rest, p), key, k);
      } else {
        assert Filter(rows, p) == Filter(rest, p);
      }
    }
  }

  /** When every row of key `k` passes the filter, the first one is unchanged;
      when none passes, there is none. */
  lemma {:induction false} LookupFilter<T, K>(rows: seq<T>, key: T -> K, p: T -> bool, k: K)
    ensures (forall x :: x in rows && key(x) == k ==> p(x)) ==> Lookup(Filter(rows, p), key, k) == Lookup(rows, key, k)
    ensures (forall x :: x in rows && key(x) == k ==> !p(x)) ==> Lookup(Filter(rows, p), key, k) == None
  {
    if rows != [] {
      var rest := rows[1..];
      assert forall x :: x in rest ==> x in rows;
      LookupFilter(rest, key, p, k);
      if p(rows[0]) {
        LookupAppend([rows[0]], Filter(rest, p), key, k);
      } else {
        assert Filter(rows, p) == Filter(rest, p);
      }
    }
  }

  /** Under a unique key, the row found is the only row with that key. */
  lemma {:induction false} LookupIsOnly<T, K>(rows: seq<T>, key: T -> K, k: K)
    requires Count(rows, key, k) <= 1
    ensures forall x :: x in rows && key(x) == k ==> Lookup(rows, key, k) == Some(x)
  {
    if rows != [] {
      assert forall x :: x in rows ==> x == rows[0] || x in rows[1..];
      LookupIsOnly(rows[1..], key, k);
    }
  }

  /** The test "this row's key is not `k`", as one named predicate. */
  function KeyIsNot<T, K(==)>(key: T -> K, k: K): T -> bool {
    x => key(x) != k
  }

  /** Every row except those whose key is `k` (SQL `DELETE ... WHERE id = k`,
      JavaScript `Map.prototype.delete(k)`). */
  function Without<T, K(==,!new)>(rows: seq<T>, key: T -> K, k: K): (r: seq<T>)
    ensures forall x :: x in r ==> x in rows && key(x) != k
    ensures forall x :: x in rows && key(x) != k ==> x in r
    ensures forall j :: Count(r, key, j) == if j == k then 0 else Count(rows, key, j)
    ensures forall j :: Lookup(r, key, j) == if j == k then None else Lookup(rows, key, j)
    ensures |r| + Count(rows, key, k) == |rows|
    ensures Count(rows, key, k) == 0 ==> r == rows
  {
    WithoutFacts(rows, key, k);
    WithoutLength(rows, key, k);
    Filter(rows, KeyIsNot(key, k))
  }

  lemma {:induction false} WithoutLength<T, K>(rows: seq<T>, key: T -> K, k: K)
    ensures |Filter(rows, KeyIsNot(key, k))| + Count(rows, key, k) == |rows|
    ensures Count(rows, key, k) == 0 ==> Filter(rows, KeyIsNot(key, k)) == rows
  {
    if rows != [] {
      WithoutLength(rows[1..], key, k);
    }
  }

  lemma WithoutFacts<T, K(!new)>(rows: seq<T>, key: T -> K, k: K)
    ensures forall j :: Count(Filter(rows, KeyIsNot(key, k)), key, j) == if j == k then 0 else Count(rows, key, j)
    ensures forall j :: Lookup(Filter(rows, KeyIsNot(key, k)), key, j) == if j == k then None else Lookup(rows, key, j)
  {
    forall j
      ensures Count(Filter(rows, KeyIsNot(key, k)), key, j) == if j == k then 0 else Count(rows, key, j)
      ensures Lookup(Filter(rows, KeyIsNot(key, k)), key, j) == if j == k then None else Lookup(rows, key, j)
    {
      CountFilter(rows, key, KeyIsNot(key, k), j);
      LookupFilter(rows, key, KeyIsNot(key, k), j);
    }
  }

  /** SQLite `INSERT OR REPLACE`: the row conflicting on the key is deleted and
      the new row appended, so afterwards exactly one row has that key. */
  function Upsert<T, K(==,!new)>(rows: seq<T>, key: T -> K, x: T): (r: seq<T>)
    ensures forall y :: y in r ==> y == x || (y in rows && key(y) != key(x))
    ensures x in r && forall y :: y in rows && key(y) != key(x) ==> y in r
    ensures forall j :: Count(r, key, j) == if j == key(x) then 1 else Count(rows, key, j)
    ensures forall j :: Lookup(r, key, j) == if j == key(x) then Some(x) else Lookup(rows, key, j)
    ensures |r| + Count(rows, key, key(x)) == |rows| + 1
    ensures Count(rows, key, key(x)) == 0 ==> r == rows + [x]
  {
    var kept := Without(rows, key, key(x));
    UpsertFacts(kept, key, x);
    kept + [x]
  }

  lemma UpsertFacts<T, K(!new)>(kept: seq<T>, key: T -> K, x: T)
    ensures forall j :: Count(kept + [x], key, j) == Count(kept, key, j) + Count([x], key, j)
    ensures forall j :: Lookup(kept + [x], key, j) == if Lookup(kept, key, j).Some? then Lookup(kept, key, j) else Lookup([x], key, j)
  {
    forall j
      ensures Count(kept + [x], key, j) == Count(kept, key, j) + Count([x], key, j)
      ensures Lookup(kept + [x], key, j) == if Lookup(kept, key, j).Some? then Lookup(kept, key, j) else Lookup([x], key, j)
    {
      CountAppend(kept, [x], key, j);
      LookupAppend(kept, [x], key, j);
    }
  }

  /** JavaScript `Map.prototype.set`: an existing entry keeps its position and
      takes the new value; a new key is appended at the end. */
  function Assign<T, K(==,!new)>(rows: seq<T>, key: T -> K, x: T): (r: seq<T>)
    ensures |r| == if Count(rows, key, key(x)) == 0 then |rows| + 1 else |rows|
    ensures forall j :: Count(r, key, j) == if j != key(x) then Count(rows, key, j)
                                            else if Count(rows, key, j) == 0 then 1 else Count(rows, key, j)
    ensures forall j :: Lookup(r, key, j) == if j == key(x) then Some(x) else Lookup(rows, key, j)
    ensures forall y :: y in r ==> y == x || (y in rows && key(y) != key(x)) || (y in rows && Count(rows, key, key(x)) > 1)
  {
    if rows == [] then [x]
    else if key(rows[0]) == key(x) then
      assert forall y :: y in rows[1..] ==> y in rows;
      [x] + rows[1..]
    else
      var rest := Assign(rows[1..], key, x);
      assert forall y :: y in rows[1..] ==> y in rows;
      [rows[0]] + rest
  }
}

=== FILE: news_cache.dfy ===
/** The news cache of `StorageService`: `cacheNews`, `getCachedNews`,
    `removeExpiredNews` and `clearCache`, on both backends. */
module NewsCache {
  import opened Wrappers
  import opened Seqs
  import opened Keyed
  import opened Sorting
  import opened Records
  import opened Store

  /** `if (category)`: a missing or empty category means every category. */
  function Scope(category: Option<string>): Option<string> {
    if Present(category) then category else None
  }

  predicate InCategory(r: CachedNews, category: string) {
    r.article.category == Some(category)
  }

  /** The rows `DELETE FROM news WHERE expiration < ? [AND category = ?]` keeps. */
  function SurvivesSweep(scope: Option<string>, now: int): CachedNews -> bool {
    (r: CachedNews) => !(r.expiration < now && (scope.None? || InCategory(r, scope.value)))
  }

  /** The browser backend's test `item.expiration > now`. */
  function Unexpired(now: int): CachedNews -> bool {
    (r: CachedNews) => r.expiration > now
  }

  /** The rows `WHERE category = ? AND expiration > ?` selects. */
  function Shown(category: string, now: int): CachedNews -> bool {
    (r: CachedNews) => InCategory(r, category) && r.expiration > now
  }

  /** `memoryCache.news.get(category) || []`. */
  function MemList(st: Store, category: string): seq<CachedNews> {
    if category in st.memNews then st.memNews[category] else []
  }

  /** `removeExpiredNews(category?)`. The browser backend keeps rows with
      `expiration > now`; SQLite deletes rows with `expiration < now`, so a row
      expiring exactly at `now` survives there. */
  function RemoveExpiredNews(st: Store, category: Option<string>, now: int): (st': Store)
    ensures st.backend == Web ==> st' == st.(memNews := st'.memNews)
    ensures st.backend == Web && Present(category) ==>
      var c := category.value;
      && st'.memNews.Keys == st.memNews.Keys + {c}
      && (forall k :: k in st.memNews && k != c ==> st'.memNews[k] == st.memNews[k])
      && (forall r :: r in st'.memNews[c] <==> r in MemList(st, c) && r.expiration > now)
      && (forall r :: multiset(st'.memNews[c])[r] == if r.expiration > now then multiset(MemList(st, c))[r] else 0)
    ensures st.backend == Web && !Present(category) ==>
      && st'.memNews.Keys == st.memNews.Keys
      && (forall k, r :: k in st.memNews ==> (r in st'.memNews[k] <==> r in st.memNews[k] && r.expiration > now))
      && forall k, r :: k in st.memNews ==>
           multiset(st'.memNews[k])[r] == if r.expiration > now then multiset(st.memNews[k])[r] else 0
    ensures st.backend == Sqlite && !st.dbOpen ==> st' == st
    ensures st.backend == Sqlite && st.dbOpen ==>
      && st' == st.(newsTable := st'.newsTable)
      && (forall r :: r in st'.newsTable <==>
            r in st.newsTable && !(r.expiration < now && (!Present(category) || InCategory(r, category.value))))
      && (forall r :: multiset(st'.newsTable)[r] ==
            if r.expiration < now && (!Present(category) || InCategory(r, category.value)) then 0
            else multiset(st.newsTable)[r])
      && (forall k :: Count(st'.newsTable, NewsKey, k) <= Count(st.newsTable, NewsKey, k))
  {
    match st.backend
    case Web =>
      (match Scope(category)
       case Some(c) => st.(memNews := st.memNews[c := KeepUnexpired(MemList(st, c), now)])
       case None => st.(memNews := SweepMap(st.memNews, now)))
    case Sqlite =>
      if !st.dbOpen then st
      else st.(newsTable := SweepTable(st.newsTable, Scope(category), now))
  }

  /** `list.filter(item => item.expiration > now)`: the records with
      `expiration > now`, each as often as before, in their order. */
  function KeepUnexpired(xs: seq<CachedNews>, now: int): (ys: seq<CachedNews>)
    ensures forall r :: r in ys <==> r in xs && r.expiration > now
    ensures forall r :: multiset(ys)[r] == if r.expiration > now then multiset(xs)[r] else 0
  {
    FilterCount(xs, Unexpired(now));
    Filter(xs, Unexpired(now))
  }

  /** Every browser list after the sweep, with the same categories. */
  function SweepMap(m: map<string, seq<CachedNews>>, now: int): (m': map<string, seq<CachedNews>>)
    ensures m'.Keys == m.Keys
    ensures forall k, r :: k in m ==> (r in m'[k] <==> r in m[k] && r.expiration > now)
    ensures forall k, r :: k in m ==> multiset(m'[k])[r] == if r.expiration > now then multiset(m[k])[r] else 0
  {
    map k | k in m :: KeepUnexpired(m[k], now)
  }

  /** The news table after the `DELETE`: the rows of `scope` that expired
      before `now` are gone, every other row stays as often as it was. */
  function SweepTable(t: seq<CachedNews>, scope: Option<string>, now: int): (t': seq<CachedNews>)
    ensures forall r :: r in t' <==> r in t && !(r.expiration < now && (scope.None? || InCategory(r, scope.value)))
    ensures forall r :: multiset(t')[r] ==
              if r.expiration < now && (scope.None? || InCategory(r, scope.value)) then 0 else multiset(t)[r]
    ensures forall k :: Count(t', NewsKey, k) <= Count(t, NewsKey, k)
  {
    var kept := Filter(t, SurvivesSweep(scope, now));
    FilterCount(t, SurvivesSweep(scope, now));
    assert forall k :: Count(kept, NewsKey, k) <= Count(t, NewsKey, k) by {
      forall k ensures Count(kept, NewsKey, k) <= Count(t, NewsKey, k) {
        CountFilter(t, NewsKey, SurvivesSweep(scope, now), k);
      }
    }
    kept
  }

  /** The records of one batch as the browser backend writes them:
      `{ ...item, category, timestamp: now, expiration }`, in input order. */
  function StampAll(news: seq<Article>, category: string, now: int, expiration: int): (list: seq<CachedNews>)
    ensures StampedBatch(list, news, category, now, expiration)
  {
    seq(|news|, i requires 0 <= i < |news| => Stamp(news[i], category, now, expiration))
  }

  /** `list` is `news`, each article recategorised and stamped. */
  ghost predicate StampedBatch(list: seq<CachedNews>, news: seq<Article>, category: string, now: int, expiration: int) {
    && |list| == |news|
    && forall i :: 0 <= i < |list| ==>
         && list[i].article == news[i].(category := Some(category))
         && list[i].timestamp == now
         && list[i].expiration == expiration
  }

  /** The row SQLite stores for an article of a batch: the columns of the
      `INSERT OR REPLACE` statement. */
  function Row(a: Article, category: string, now: int, expiration: int): (r: CachedNews)
    ensures NewsKey(r) == a.url && InCategory(r, category)
    ensures r.timestamp == now && r.expiration == expiration
  {
    Stamp(Normalize(a), category, now, expiration)
  }

  /** The last article of the batch whose (present) url is `k`: the one whose
      row survives, since later inserts replace earlier ones. */
  function LastKeyed(items: seq<Article>, k: Option<string>): (r: Option<Article>)
    ensures r.Some? ==> Present(k) && r.value.url == k
    ensures r.Some? ==> exists i :: 0 <= i < |items| && items[i] == r.value && forall j :: i < j < |items| ==> items[j].url != k
    ensures r.None? <==> forall a :: a in items && Present(a.url) ==> a.url != k
  {
    if items == [] then None
    else
      var later := LastKeyed(items[1..], k);
      assert forall a :: a in items <==> a == items[0] || a in items[1..];
      match later
      case Some(a) =>
        var i :| 0 <= i < |items[1..]| && items[1..][i] == a && forall j :: i < j < |items[1..]| ==> items[1..][j].url != k;
        assert items[i + 1] == a;
        assert forall j :: i + 1 < j < |items| ==> items[j].url == items[1..][j - 1].url;
        Some(a)
      case None =>
        if Present(items[0].url) && items[0].url == k then
          assert forall j :: 0 < j < |items| ==> items[j] in items[1..];
          Some(items[0])
        else None
  }

  /** The loop of `cacheNews` on SQLite: every article with a url is upserted
      in turn; an article without one is skipped and the loop goes on. */
  function StoreBatch(table: seq<CachedNews>, items: seq<Article>, category: string, now: int, expiration: int): (r: seq<CachedNews>)
    ensures forall k :: Lookup(r, NewsKey, k) == match LastKeyed(items, k)
                                                 case Some(a) => Some(Row(a, category, now, expiration))
                                                 case None => Lookup(table, NewsKey, k)
    ensures forall k :: Count(r, NewsKey, k) == if LastKeyed(items, k).Some? then 1 else Count(table, NewsKey, k)
    ensures forall x :: x in r ==> x in table || exists a :: a in items && Present(a.url) && x == Row(a, category, now, expiration)
    decreases |items|
  {
    if items == [] then table
    else
      var next := if Present(items[0].url) then Upsert(table, NewsKey, Row(items[0], category, now, expiration)) else table;
      var rest := StoreBatch(next, items[1..], category, now, expiration);
      StoreBatchLookupStep(table, items, category, now, expiration, rest);
      StoreBatchCountStep(table, items, category, now, expiration, rest);
      StoreBatchRowsStep(table, items, category, now, expiration, rest);
      rest
  }

  /** The table after upserting the first article of a batch. */
  function FirstUpserted(table: seq<CachedNews>, items: seq<Article>, category: string, now: int, expiration: int): seq<CachedNews>
    requires items != []
  {
    if Present(items[0].url) then Upsert(table, NewsKey, Row(items[0], category, now, expiration)) else table
  }

  /** One turn of the insert loop, as lookups: upserting the first article
      and then writing the rest of the batch leaves, for each url, the row of
      the whole batch's last article with it. */
  lemma StoreBatchLookupStep(table: seq<CachedNews>, items: seq<Article>, category: string, now: int, expiration: int, rest: seq<CachedNews>)
    requires items != []
    requires forall k :: Lookup(rest, NewsKey, k) == match LastKeyed(items[1..], k)
                                                    case Some(b) => Some(Row(b, category, now, expiration))
                                                    case None => Lookup(FirstUpserted(table, items, category, now, expiration), NewsKey, k)
    ensures forall k :: Lookup(rest, NewsKey, k) == match LastKeyed(items, k)
                                                   case Some(b) => Some(Row(b, category, now, expiration))
                                                   case None => Lookup(table, NewsKey, k)
  {
  }

  /** One turn of the insert loop, as row counts per url. */
  lemma StoreBatchCountStep(table: seq<CachedNews>, items: seq<Article>, category: string, now: int, expiration: int, rest: seq<CachedNews>)
    requires items != []
    requires forall k :: Count(rest, NewsKey, k) ==
               if LastKeyed(items[1..], k).Some? then 1 else Count(FirstUpserted(table, items, category, now, expiration), NewsKey, k)
    ensures forall k :: Count(rest, NewsKey, k) == if LastKeyed(items, k).Some? then 1 else Count(table, NewsKey, k)
  {
  }

  /** One turn of the insert loop, as rows: every row left is an old one or
      the row of an article of the batch that has a url. */
  lemma StoreBatchRowsStep(table: seq<CachedNews>, items: seq<Article>, category: string, now: int, expiration: int, rest: seq<CachedNews>)
    requires items != []
    requires forall x :: x in rest ==>
               x in FirstUpserted(table, items, category, now, expiration) ||
               exists a :: a in items[1..] && Present(a.url) && x == Row(a, category, now, expiration)
    ensures forall x :: x in rest ==> x in table || exists a :: a in items && Present(a.url) && x == Row(a, category, now, expiration)
  {
    assert forall b :: b in items[1..] ==> b in items;
  }

  /** No article of the batch has a url, so the SQLite loop never reaches
      the database. */
  predicate Unkeyed(news: seq<Article>) {
    forall a :: a in news ==> !Present(a.url)
  }

  /** `cacheNews(news, category, expirationMinutes)`, with `now` the clock
      reading and `mirrorWritten` whether `localStorage.setItem` succeeded. */
  function CacheNews(st: Store, news: seq<Article>, category: string, minutes: int, now: int, mirrorWritten: bool): (r: Step<bool>)
    requires st.ready
    ensures |news| == 0 ==> r == Step(st, false)
    ensures |news| > 0 ==> (r.result <==> Usable(st) || Unkeyed(news))
    ensures !r.result || !Usable(st) ==> r.store == st
    ensures st.backend == Web && |news| > 0 ==>
      var expiration := ExpirationTime(now, minutes);
      && category in r.store.memNews
      && StampedBatch(r.store.memNews[category], news, category, now, expiration)
      && r.store.memNews == st.memNews[category := r.store.memNews[category]]
      && r.store.mirror == (if mirrorWritten then st.mirror[category := Some(Snapshot(now, expiration, r.store.memNews[category]))]
                            else st.mirror)
      && r.store == st.(memNews := r.store.memNews, mirror := r.store.mirror)
    ensures st.backend == Sqlite && st.dbOpen && |news| > 0 ==>
      var expiration := ExpirationTime(now, minutes);
      var swept := RemoveExpiredNews(st, Some(category), now).newsTable;
      && r.store == st.(newsTable := r.store.newsTable)
      && (forall k :: Lookup(r.store.newsTable, NewsKey, k) == match LastKeyed(news, k)
                                                             case Some(a) => Some(Row(a, category, now, expiration))
                                                             case None => Lookup(swept, NewsKey, k))
      && (forall k :: Count(r.store.newsTable, NewsKey, k) == if LastKeyed(news, k).Some? then 1 else Count(swept, NewsKey, k))
      && (forall x :: x in r.store.newsTable ==>
            x in st.newsTable || exists a :: a in news && Present(a.url) && x == Row(a, category, now, expiration))
  {
    if |news| == 0 then Step(st, false)
    else
      var expiration := ExpirationTime(now, minutes);
      match st.backend
      case Web =>
        var list := StampAll(news, category, now, expiration);
        var mirror := if mirrorWritten then st.mirror[category := Some(Snapshot(now, expiration, list))] else st.mirror;
        Step(st.(memNews := st.memNews[category := list], mirror := mirror), true)
      case Sqlite =>
        if !st.dbOpen then Step(st, Unkeyed(news))
        else
          var swept := RemoveExpiredNews(st, Some(category), now);
          Step(swept.(newsTable := StoreBatch(swept.newsTable, news, category, now, expiration)), true)
  }

  /** `cacheNews(news, category)` with the default of 30 minutes. */
  function CacheNewsDefault(st: Store, news: seq<Article>, category: string, now: int, mirrorWritten: bool): (r: Step<bool>)
    requires st.ready
    ensures r.result && st.backend == Web ==>
      category in r.store.memNews && forall x :: x in r.store.memNews[category] ==> x.timestamp == now && x.expiration == now + 1_800_000
    ensures r.result && st.backend == Sqlite ==>
      forall a :: a in news && Present(a.url) ==>
        Lookup(r.store.newsTable, NewsKey, a.url).Some? && Lookup(r.store.newsTable, NewsKey, a.url).value.expiration == now + 1_800_000
  {
    var r := CacheNews(st, news, category, DefaultExpirationMinutes, now, mirrorWritten);
    assert r.result && st.backend == Sqlite ==> forall a :: a in news && Present(a.url) ==> LastKeyed(news, a.url).Some?;
    r
  }

  /** An unexpired, readable `localStorage` snapshot for `category`. */
  predicate MirrorFresh(st: Store, category: string, now: int) {
    category in st.mirror && st.mirror[category].Some? && st.mirror[category].value.expiration > now
  }

  /** `getCachedNews(category)` in the browser: the memory list is read as is
      (there is no sweep) and, when it is empty, first restored from an
      unexpired `localStorage` snapshot. */
  function WebRead(st: Store, category: string, now: int): (r: Step<seq<CachedNews>>)
    requires st.backend == Web
    ensures |MemList(st, category)| > 0 ==>
      && r.store == st
      && |r.result| <= |st.memNews[category]|
      && (forall x :: x in r.result <==> x in st.memNews[category] && x.expiration > now)
      && forall x :: multiset(r.result)[x] == if x.expiration > now then multiset(st.memNews[category])[x] else 0
    ensures |MemList(st, category)| == 0 && MirrorFresh(st, category, now) ==>
      var data := st.mirror[category].value.data;
      && r.store == st.(memNews := st.memNews[category := data])
      && |r.result| <= |data|
      && (forall x :: x in r.result <==> x in data && x.expiration > now)
      && forall x :: multiset(r.result)[x] == if x.expiration > now then multiset(data)[x] else 0
    ensures |MemList(st, category)| == 0 && !MirrorFresh(st, category, now) ==> r == Step(st, [])
  {
    var cached := MemList(st, category);
    if |cached| > 0 then Step(st, KeepUnexpired(cached, now))
    else if MirrorFresh(st, category, now) then
      var data := st.mirror[category].value.data;
      Step(st.(memNews := st.memNews[category := data]), KeepUnexpired(data, now))
    else Step(st, [])
  }

  /** `getCachedNews(category)` on SQLite: the category is swept, then its
      unexpired rows are returned, latest `publishedAt` first. */
  function SqliteRead(st: Store, category: string, now: int): (r: Step<seq<CachedNews>>)
    requires st.backend == Sqlite
    ensures !st.dbOpen ==> r == Step(st, [])
    ensures st.dbOpen ==>
      && r.store == RemoveExpiredNews(st, Some(category), now)
      && (forall x :: x in r.result <==> x in st.newsTable && InCategory(x, category) && x.expiration > now)
      && multiset(r.result) == multiset(Filter(st.newsTable, Shown(category, now)))
      && SortedDesc(r.result, PublishedGeq)
  {
    if !st.dbOpen then Step(st, [])
    else
      var swept := RemoveExpiredNews(st, Some(category), now);
      var rows := Filter(swept.newsTable, Shown(category, now));
      FilterAbsorbs(st.newsTable, SurvivesSweep(Scope(Some(category)), now), Shown(category, now));
      PublishedGeqIsPreorder();
      SortDescSorted(rows, PublishedGeq);
      var sorted := SortDesc(rows, PublishedGeq);
      assert forall x :: x in sorted <==> x in rows by {
        forall x ensures x in sorted <==> x in rows {
          assert x in sorted <==> x in multiset(sorted);
          assert x in rows <==> x in multiset(rows);
        }
      }
      Step(swept, sorted)
  }

  /** `getCachedNews(category)`: on either backend only unexpired records
      come back. SQLite sweeps the category (every category for `''`) and
      answers with exactly its unexpired rows, latest first; the browser
      answers with the unexpired part of the memory list, duplicates
      included, restoring an empty list from a fresh mirror first.
      Favorites, settings and the mirror stay as they were. */
  function GetCachedNews(st: Store, category: string, now: int): (r: Step<seq<CachedNews>>)
    requires st.ready
    ensures forall x :: x in r.result ==> x.expiration > now
    ensures r.store == st.(memNews := r.store.memNews, newsTable := r.store.newsTable)
    ensures !Usable(st) ==> r == Step(st, [])
    ensures st.backend == Web && |MemList(st, category)| > 0 ==>
      && r.store == st
      && forall x :: multiset(r.result)[x] == if x.expiration > now then multiset(st.memNews[category])[x] else 0
    ensures st.backend == Web && |MemList(st, category)| == 0 && MirrorFresh(st, category, now) ==>
      var data := st.mirror[category].value.data;
      && r.store == st.(memNews := st.memNews[category := data])
      && forall x :: multiset(r.result)[x] == if x.expiration > now then multiset(data)[x] else 0
    ensures st.backend == Web && |MemList(st, category)| == 0 && !MirrorFresh(st, category, now) ==> r == Step(st, [])
    ensures st.backend == Sqlite ==>
      && (forall x :: x in r.result ==> InCategory(x, category))
      && SortedDesc(r.result, PublishedGeq)
    ensures st.backend == Sqlite && st.dbOpen ==>
      && r.store == st.(newsTable := r.store.newsTable)
      && multiset(r.result) == multiset(Filter(st.newsTable, Shown(category, now)))
      && forall x :: multiset(r.store.newsTable)[x] ==
           if x.expiration < now && (category == "" || InCategory(x, category)) then 0 else multiset(st.newsTable)[x]
  {
    match st.backend
    case Web => WebRead(st, category, now)
    case Sqlite => SqliteRead(st, category, now)
  }

  /** `clearCache()`: every cached article goes, in every category; favorites,
      settings and the `localStorage` mirror are not touched. */
  function ClearCache(st: Store): (r: Step<bool>)
    requires st.ready
    ensures r.result <==> Usable(st)
    ensures !r.result ==> r.store == st
    ensures st.backend == Web ==> r.store == st.(memNews := map[])
    ensures st.backend == Sqlite && st.dbOpen ==> r.store == st.(newsTable := [])
  {
    match st.backend
    case Web => Step(st.(memNews := map[]), true)
    case Sqlite => if st.dbOpen then Step(st.(newsTable := []), true) else Step(st, false)
  }
}

=== FILE: news_props.dfy ===
/** Properties of the news cache that relate several calls: expiry as seen
    by later reads, the SQLite upsert discipline, the two backends' different
    strictness, clearing, and the `localStorage` mirror across a restart. */
module NewsProperties {
  import opened Wrappers
  import opened Seqs
  import opened Keyed
  import opened Records
  import opened Store
  import opened NewsCache

  /** On SQLite one batch leaves exactly one row per present url, carrying the
      batch's category, write time and expiry, whatever row that url had
      before; an article without url adds no row and does not stop the rest
      of the batch. */
  lemma {:induction false} SqliteBatchUpserts(st: Store, news: seq<Article>, category: string, minutes: int, now: int, mirrorWritten: bool)
    requires st.ready && st.backend == Sqlite && st.dbOpen
    requires |news| > 0
    ensures var r := CacheNews(st, news, category, minutes, now, mirrorWritten);
      && r.result
      && (forall a :: a in news && Present(a.url) ==> Count(r.store.newsTable, NewsKey, a.url) == 1)
      && (forall a, x :: a in news && Present(a.url) && x in r.store.newsTable && NewsKey(x) == a.url ==>
            InCategory(x, category) && x.timestamp == now && x.expiration == ExpirationTime(now, minutes))
      && (forall x :: x in r.store.newsTable && !Present(NewsKey(x)) ==> x in st.newsTable)
  {
    var r := CacheNews(st, news, category, minutes, now, mirrorWritten);
    var exp := ExpirationTime(now, minutes);
    forall a, x | a in news && Present(a.url) && x in r.store.newsTable && NewsKey(x) == a.url
      ensures InCategory(x, category) && x.timestamp == now && x.expiration == exp
    {
      var last := LastKeyed(news, a.url);
      assert last.Some?;
      assert Count(r.store.newsTable, NewsKey, a.url) == 1;
      LookupIsOnly(r.store.newsTable, NewsKey, a.url);
      assert Lookup(r.store.newsTable, NewsKey, a.url) == Some(Row(last.value, category, now, exp));
    }
  }

  /** Read after write on SQLite: the row an article of the batch got is read
      back exactly while the read time is before its expiry. */
  lemma SqliteReadAfterWrite(st: Store, news: seq<Article>, category: string, minutes: int, now: int, mirrorWritten: bool, later: int, a: Article)
    requires st.ready && st.backend == Sqlite && st.dbOpen
    requires a in news && Present(a.url) && LastKeyed(news, a.url) == Some(a)
    ensures var written := CacheNews(st, news, category, minutes, now, mirrorWritten).store;
            var row := Row(a, category, now, ExpirationTime(now, minutes));
            row in GetCachedNews(written, category, later).result <==> later < ExpirationTime(now, minutes)
  {
    var written := CacheNews(st, news, category, minutes, now, mirrorWritten).store;
    assert Lookup(written.newsTable, NewsKey, a.url) == Some(Row(a, category, now, ExpirationTime(now, minutes)));
  }

  /** Read after write in the browser: each record of the batch is read back
      exactly while the read time is before its expiry. */
  lemma WebReadAfterWrite(st: Store, news: seq<Article>, category: string, minutes: int, now: int, mirrorWritten: bool, later: int, i: int)
    requires st.ready && st.backend == Web
    requires 0 <= i < |news|
    ensures var written := CacheNews(st, news, category, minutes, now, mirrorWritten).store;
            written.memNews[category][i] in GetCachedNews(written, category, later).result <==> later < ExpirationTime(now, minutes)
  {
    var written := CacheNews(st, news, category, minutes, now, mirrorWritten).store;
    assert written.memNews[category][i] in written.memNews[category];
  }

  /** The browser backend replaces a category's list wholesale: no earlier
      record of that category is left, and other categories are untouched,
      even when the `localStorage` write fails. */
  lemma WebBatchReplacesList(st: Store, news: seq<Article>, category: string, minutes: int, now: int, mirrorWritten: bool, x: CachedNews)
    requires st.ready && st.backend == Web && |news| > 0
    requires x in MemList(st, category) && x.timestamp != now
    ensures var r := CacheNews(st, news, category, minutes, now, mirrorWritten);
            && r.result
            && x !in MemList(r.store, category)
            && forall k :: k != category ==> MemList(r.store, k) == MemList(st, k)
  {
  }

  /** A batch holding the same article twice: the browser keeps both records
      and reads both back, where SQLite keeps a single row for the url. */
  lemma DuplicateBatchDiverges(st: Store, a: Article, category: string, minutes: int, now: int, mirrorWritten: bool, later: int)
    requires st.ready && Usable(st)
    requires later < ExpirationTime(now, minutes)
    ensures var written := CacheNews(st, [a, a], category, minutes, now, mirrorWritten).store;
            st.backend == Web ==>
              var x := Stamp(a, category, now, ExpirationTime(now, minutes));
              multiset(GetCachedNews(written, category, later).result)[x] == 2
    ensures var written := CacheNews(st, [a, a], category, minutes, now, mirrorWritten).store;
            st.backend == Sqlite && Present(a.url) ==> Count(written.newsTable, NewsKey, a.url) == 1
  {
    var written := CacheNews(st, [a, a], category, minutes, now, mirrorWritten).store;
    if st.backend == Web {
      var x := Stamp(a, category, now, ExpirationTime(now, minutes));
      var list := written.memNews[category];
      assert list == [x, x];
      assert multiset(list)[x] == 2;
    } else if Present(a.url) {
      assert a in [a, a];
    }
  }

  /** SQLite's sweep deletes `expiration < now` but its read keeps
      `expiration > now`: a row expiring exactly now survives the sweep and is
      hidden from the read. */
  lemma SqliteBoundaryRowSurvivesHidden(st: Store, x: CachedNews, category: string, now: int)
    requires st.ready && st.backend == Sqlite && st.dbOpen
    requires x in st.newsTable && x.expiration == now
    ensures x in RemoveExpiredNews(st, Some(category), now).newsTable
    ensures x in RemoveExpiredNews(st, None, now).newsTable
    ensures x !in GetCachedNews(st, category, now).result
    ensures x in GetCachedNews(st, category, now).store.newsTable
  {
  }

  /** The browser's sweep keeps only `expiration > now`, so the same row is
      dropped there. */
  lemma WebBoundaryRowSwept(st: Store, x: CachedNews, category: string, now: int)
    requires st.backend == Web && category != ""
    requires x in MemList(st, category) && x.expiration == now
    ensures x !in RemoveExpiredNews(st, Some(category), now).memNews[category]
  {
  }

  /** After `clearCache` SQLite reads nothing, in any category, at any time. */
  lemma SqliteClearEmptiesReads(st: Store, category: string, now: int)
    requires st.ready && st.backend == Sqlite && st.dbOpen
    ensures GetCachedNews(ClearCache(st).store, category, now).result == []
  {
  }

  /** In the browser `clearCache` leaves the `localStorage` mirror in place,
      so the next read of a category with an unexpired snapshot brings the
      cleared records back. */
  lemma WebClearThenRestore(st: Store, category: string, now: int)
    requires st.ready && st.backend == Web
    requires MirrorFresh(st, category, now)
    ensures var cleared := ClearCache(st).store;
            var data := st.mirror[category].value.data;
            && MemList(cleared, category) == []
            && forall x :: x in GetCachedNews(cleared, category, now).result <==> x in data && x.expiration > now
  {
  }

  /** The mirror is what survives a restart in the browser: a batch written to
      it is read back in full by a new process before it expires. */
  lemma WebBatchSurvivesRestart(st: Store, news: seq<Article>, category: string, minutes: int, now: int, later: int)
    requires st.ready && st.backend == Web && |news| > 0
    requires later < ExpirationTime(now, minutes)
    ensures var written := CacheNews(st, news, category, minutes, now, true).store;
            var reopened := Initialize(Restart(written), Browser);
            forall x :: x in GetCachedNews(reopened, category, later).result <==> x in written.memNews[category]
  {
    var written := CacheNews(st, news, category, minutes, now, true).store;
    var reopened := Initialize(Restart(written), Browser);
    assert MirrorFresh(reopened, category, later);
    forall x | x in written.memNews[category] ensures x.expiration > later {
      var list := written.memNews[category];
      var i :| 0 <= i < |list| && list[i] == x;
    }
  }

  /** An article with a url that no later article of the batch repeats is the
      one whose row the batch leaves. */
  lemma {:induction false} LastKeyedIsLast(items: seq<Article>, i: int)
    requires 0 <= i < |items| && Present(items[i].url)
    requires forall j :: i < j < |items| ==> items[j].url != items[i].url
    ensures LastKeyed(items, items[i].url) == Some(items[i])
  {
    var k := items[i].url;
    if i == 0 {
      assert forall a :: a in items[1..] && Present(a.url) ==> a.url != k by {
        forall a | a in items[1..] ensures a.url != k {
          var j :| 0 <= j < |items[1..]| && items[1..][j] == a;
          assert items[j + 1] == a;
        }
      }
    } else {
      LastKeyedIsLast(items[1..], i - 1);
    }
  }

  /** Three articles with distinct urls cached for "sports" with a one-minute
      lifetime at time 0 are exactly what is read at 30 s; at 61 s the read
      is empty and the sweep has left no "sports" row in the table. */
  lemma SqliteSportsScenario(st: Store, a1: Article, a2: Article, a3: Article)
    requires st.ready && st.backend == Sqlite && st.dbOpen && st.newsTable == []
    requires Present(a1.url) && Present(a2.url) && Present(a3.url)
    requires a1.url != a2.url && a1.url != a3.url && a2.url != a3.url
    ensures var written := CacheNews(st, [a1, a2, a3], "sports", 1, 0, true).store;
            var rows := [Row(a1, "sports", 0, 60_000), Row(a2, "sports", 0, 60_000), Row(a3, "sports", 0, 60_000)];
            && (forall x :: x in GetCachedNews(written, "sports", 30_000).result <==> x in rows)
            && GetCachedNews(written, "sports", 61_000).result == []
            && forall x :: x in GetCachedNews(written, "sports", 61_000).store.newsTable ==> !InCategory(x, "sports")
  {
    var written := CacheNews(st, [a1, a2, a3], "sports", 1, 0, true).store;
    var rows := [Row(a1, "sports", 0, 60_000), Row(a2, "sports", 0, 60_000), Row(a3, "sports", 0, 60_000)];
    SportsTable(st, a1, a2, a3);
    SportsReads(written, rows);
  }

  /** Caching a batch of distinct urls into an empty table leaves exactly one
      row per article of the batch. */
  lemma FreshBatchRows(st: Store, news: seq<Article>, category: string, minutes: int, now: int, mirrorWritten: bool)
    requires st.ready && st.backend == Sqlite && st.dbOpen && st.newsTable == [] && |news| > 0
    requires forall i :: 0 <= i < |news| ==> Present(news[i].url)
    requires forall i, j :: 0 <= i < j < |news| ==> news[i].url != news[j].url
    ensures var written := CacheNews(st, news, category, minutes, now, mirrorWritten).store;
            && written.ready && written.backend == Sqlite && written.dbOpen
            && (forall i :: 0 <= i < |news| ==> Row(news[i], category, now, ExpirationTime(now, minutes)) in written.newsTable)
            && (forall x :: x in written.newsTable ==>
                  exists i :: 0 <= i < |news| && x == Row(news[i], category, now, ExpirationTime(now, minutes)))
  {
    var written := CacheNews(st, news, category, minutes, now, mirrorWritten).store;
    var exp := ExpirationTime(now, minutes);
    forall i | 0 <= i < |news| ensures Row(news[i], category, now, exp) in written.newsTable {
      LastKeyedIsLast(news, i);
      assert Lookup(written.newsTable, NewsKey, news[i].url) == Some(Row(news[i], category, now, exp));
    }
    forall x | x in written.newsTable ensures exists i :: 0 <= i < |news| && x == Row(news[i], category, now, exp) {
      var a :| a in news && Present(a.url) && x == Row(a, category, now, exp);
      var i :| 0 <= i < |news| && news[i] == a;
    }
  }

  lemma SportsTable(st: Store, a1: Article, a2: Article, a3: Article)
    requires st.ready && st.backend == Sqlite && st.dbOpen && st.newsTable == []
    requires Present(a1.url) && Present(a2.url) && Present(a3.url)
    requires a1.url != a2.url && a1.url != a3.url && a2.url != a3.url
    ensures var written := CacheNews(st, [a1, a2, a3], "sports", 1, 0, true).store;
            var rows := [Row(a1, "sports", 0, 60_000), Row(a2, "sports", 0, 60_000), Row(a3, "sports", 0, 60_000)];
            && written.ready && written.backend == Sqlite && written.dbOpen
            && forall x :: x in written.newsTable <==> x in rows
  {
    var news := [a1, a2, a3];
    DistinctThree(news, a1, a2, a3);
    FreshBatchRows(st, news, "sports", 1, 0, true);
    assert ExpirationTime(0, 1) == 60_000;
    RowsOfThree(CacheNews(st, news, "sports", 1, 0, true).store.newsTable, news, a1, a2, a3);
  }

  /** A table holding exactly the rows of a three-article batch. */
  lemma RowsOfThree(table: seq<CachedNews>, news: seq<Article>, a1: Article, a2: Article, a3: Article)
    requires news == [a1, a2, a3]
    requires forall i :: 0 <= i < |news| ==> Row(news[i], "sports", 0, 60_000) in table
    requires forall x :: x in table ==> exists i :: 0 <= i < |news| && x == Row(news[i], "sports", 0, 60_000)
    ensures forall x :: x in table <==> x in [Row(a1, "sports", 0, 60_000), Row(a2, "sports", 0, 60_000), Row(a3, "sports", 0, 60_000)]
  {
    var rows := [Row(a1, "sports", 0, 60_000), Row(a2, "sports", 0, 60_000), Row(a3, "sports", 0, 60_000)];
    assert rows[0] == Row(news[0], "sports", 0, 60_000) && rows[0] in table;
    assert rows[1] == Row(news[1], "sports", 0, 60_000) && rows[1] in table;
    assert rows[2] == Row(news[2], "sports", 0, 60_000) && rows[2] in table;
    forall x | x in table ensures x in rows {
      var i :| 0 <= i < |news| && x == Row(news[i], "sports", 0, 60_000);
      if i == 0 { assert x == rows[0]; }
      else if i == 1 { assert x == rows[1]; }
      else { assert x == rows[2]; }
    }
  }

  /** Three articles with pairwise different urls form a batch of distinct urls. */
  lemma DistinctThree(news: seq<Article>, a1: Article, a2: Article, a3: Article)
    requires news == [a1, a2, a3]
    requires a1.url != a2.url && a1.url != a3.url && a2.url != a3.url
    ensures forall i, j :: 0 <= i < j < |news| ==> news[i].url != news[j].url
  {
    forall i, j | 0 <= i < j < |news| ensures news[i].url != news[j].url {
      if i == 0 {
        assert j == 1 || j == 2;
      } else {
        assert i == 1 && j == 2;
      }
    }
  }

  lemma SportsReads(written: Store, rows: seq<CachedNews>)
    requires written.ready && written.backend == Sqlite && written.dbOpen
    requires forall x :: x in written.newsTable <==> x in rows
    requires forall x :: x in rows ==> InCategory(x, "sports") && x.expiration == 60_000
    ensures forall x :: x in GetCachedNews(written, "sports", 30_000).result <==> x in rows
    ensures GetCachedNews(written, "sports", 61_000).result == []
    ensures forall x :: x in GetCachedNews(written, "sports", 61_000).store.newsTable ==> !InCategory(x, "sports")
  {
    FilterDropsAll(written.newsTable, Shown("sports", 61_000));
    assert multiset(GetCachedNews(written, "sports", 61_000).result) == multiset{};
  }

  /** The same batch in the browser: the read at 61 s is empty too, but the
      memory list still holds all three records, since nothing sweeps it. */
  lemma WebSportsScenario(st: Store, a1: Article, a2: Article, a3: Article)
    requires st.ready && st.backend == Web
    ensures var written := CacheNews(st, [a1, a2, a3], "sports", 1, 0, true).store;
            && |GetCachedNews(written, "sports", 30_000).result| == 3
            && GetCachedNews(written, "sports", 61_000).result == []
            && |MemList(GetCachedNews(written, "sports", 61_000).store, "sports")| == 3
  {
    var written := CacheNews(st, [a1, a2, a3], "sports", 1, 0, true).store;
    var list := written.memNews["sports"];
    FilterKeepsAll(list, Unexpired(30_000));
    assert forall x :: x in list ==> x.expiration == 60_000 by {
      forall x | x in list ensures x.expiration == 60_000 {
        var i :| 0 <= i < |list| && list[i] == x;
      }
    }
    FilterDropsAll(list, Unexpired(61_000));
    assert |list| == 3;
    assert KeepUnexpired(list, 30_000) == list;
    assert KeepUnexpired(list, 61_000) == [];
    assert GetCachedNews(written, "sports", 30_000) == WebRead(written, "sports", 30_000);
    assert GetCachedNews(written, "sports", 61_000) == WebRead(written, "sports", 61_000);
  }
}

=== FILE: records.dfy ===
/** The records the store keeps: an article as the news API delivers it, the
    cached copy with its write and expiry times, a favorite, and the snapshot
    mirrored into the browser's `localStorage`. */
module Records {
  import opened Wrappers
  import opened Sorting

  /** The article's publisher, a nested `{ id, name }` pair. */
  datatype Source = Source(id: Option<string>, name: Option<string>)

  /** An article object. Every field may be missing (`undefined`/`null`); the
      url is the article's identity. */
  datatype Article = Article(
    title: Option<string>,
    description: Option<string>,
    url: Option<string>,
    urlToImage: Option<string>,
    publishedAt: Option<string>,
    content: Option<string>,
    author: Option<string>,
    category: Option<string>,
    source: Option<Source>)

  /** A cached article: the article with its category set, plus the write time
      and the expiry time, both in epoch milliseconds. */
  datatype CachedNews = CachedNews(article: Article, timestamp: int, expiration: int)

  /** A favorite: the article as saved, plus the time it was saved. */
  datatype Favorite = Favorite(article: Article, timestamp: int)

  /** The value stored under `news_<category>` in `localStorage`. */
  datatype Snapshot = Snapshot(timestamp: int, expiration: int, data: seq<CachedNews>)

  const MsPerMinute: int := 60 * 1000

  /** The `expirationMinutes` used when the caller passes none. */
  const DefaultExpirationMinutes: int := 30

  /** JavaScript truthiness of an optional string: present and not `''`. */
  predicate Present(s: Option<string>) {
    s.Some? && s.value != ""
  }

  /** The identity of a cached row or a favorite: its url. */
  function NewsKey(r: CachedNews): Option<string> {
    r.article.url
  }

  function FavoriteKey(f: Favorite): Option<string> {
    f.article.url
  }

  /** Expiry of a batch written at `now`. */
  function ExpirationTime(now: int, minutes: int): int {
    now + minutes * MsPerMinute
  }

  /** `x || ''`: a missing text becomes the empty text. */
  function OrEmpty(s: Option<string>): Option<string> {
    Some(s.GetOr(""))
  }

  /** The article as the SQLite backend stores it: missing texts become `''`
      and a missing source becomes `{}`. The url is kept as given. */
  function Normalize(a: Article): (n: Article)
    ensures n.url == a.url && n.category == a.category
    ensures a.title.Some? ==> n.title == a.title
    ensures a.title.None? ==> n.title == Some("")
    ensures a.description.Some? ==> n.description == a.description
    ensures a.description.None? ==> n.description == Some("")
    ensures a.urlToImage.Some? ==> n.urlToImage == a.urlToImage
    ensures a.urlToImage.None? ==> n.urlToImage == Some("")
    ensures a.publishedAt.Some? ==> n.publishedAt == a.publishedAt
    ensures a.publishedAt.None? ==> n.publishedAt == Some("")
    ensures a.content.Some? ==> n.content == a.content
    ensures a.content.None? ==> n.content == Some("")
    ensures a.author.Some? ==> n.author == a.author
    ensures a.author.None? ==> n.author == Some("")
    ensures a.source.Some? ==> n.source == a.source
    ensures a.source.None? ==> n.source == Some(Source(None, None))
  {
    Article(OrEmpty(a.title), OrEmpty(a.description), a.url, OrEmpty(a.urlToImage),
            OrEmpty(a.publishedAt), OrEmpty(a.content), OrEmpty(a.author),
            a.category, Some(a.source.GetOr(Source(None, None))))
  }

  /** A record of a batch cached at `now` for `category`. */
  function Stamp(a: Article, category: string, now: int, expiration: int): (r: CachedNews)
    ensures r.article.category == Some(category) && r.timestamp == now && r.expiration == expiration
    ensures r.article.(category := a.category) == a
  {
    CachedNews(a.(category := Some(category)), now, expiration)
  }

  /** The order of `ORDER BY publishedAt DESC`: texts compared in SQLite's
      BINARY collation, a missing text counting as `''`. */
  function PublishedGeq(x: CachedNews, y: CachedNews): bool {
    TextGeq(x.article.publishedAt.GetOr(""), y.article.publishedAt.GetOr(""))
  }

  /** The order of "newest favorite first". */
  function SavedGeq(x: Favorite, y: Favorite): bool {
    x.timestamp >= y.timestamp
  }

  lemma PublishedGeqIsPreorder()
    ensures TotalPreorder(PublishedGeq)
  {
    forall a, b ensures PublishedGeq(a, b) || PublishedGeq(b, a) {
      TextGeqTotal(a.article.publishedAt.GetOr(""), b.article.publishedAt.GetOr(""));
    }
    forall a, b, c | PublishedGeq(a, b) && PublishedGeq(b, c) ensures PublishedGeq(a, c) {
      TextGeqTransitive(a.article.publishedAt.GetOr(""), b.article.publishedAt.GetOr(""),
                        c.article.publishedAt.GetOr(""));
    }
  }

  lemma SavedGeqIsPreorder()
    ensures TotalPreorder(SavedGeq)
  {
  }
}

=== FILE: seqs.dfy ===
/** Order-preserving filtering of sequences (JavaScript's `Array.prototype.filter`,
    and the row-selecting part of an SQL `WHERE`). */
module Seqs {

  /** The elements of `xs` that satisfy `p`, in their original order. */
  function Filter<T>(xs: seq<T>, p: T -> bool): (r: seq<T>)
    ensures |r| <= |xs|
    ensures forall x :: x in r ==> x in xs && p(x)
    ensures forall x :: x in xs && p(x) ==> x in r
  {
    if xs == [] then []
    else
      assert xs == [xs[0]] + xs[1..];
      (if p(xs[0]) then [xs[0]] else []) + Filter(xs[1..], p)
  }

  /** Filtering by a weaker predicate first changes nothing. */
  lemma {:induction false} FilterAbsorbs<T>(xs: seq<T>, p: T -> bool, q: T -> bool)
    requires forall x :: q(x) ==> p(x)
    ensures Filter(Filter(xs, p), q) == Filter(xs, q)
  {
    if xs != [] {
      FilterAbsorbs(xs[1..], p, q);
      if p(xs[0]) {
        assert Filter(xs, p) == [xs[0]] + Filter(xs[1..], p);
        assert Filter(xs, p)[1..] == Filter(xs[1..], p);
      } else {
        assert !q(xs[0]);
        assert Filter(xs, p) == Filter(xs[1..], p);
        assert Filter(xs, q) == Filter(xs[1..], q);
      }
    }
  }

  /** Filtering keeps every element that passes, so an all-passing filter is the identity. */
  lemma {:induction false} FilterKeepsAll<T>(xs: seq<T>, p: T -> bool)
    requires forall x :: x in xs ==> p(x)
    ensures Filter(xs, p) == xs
  {
    if xs != [] {
      assert xs[0] in xs;
      forall x | x in xs[1..] ensures p(x) {
        assert x in xs;
      }
      FilterKeepsAll(xs[1..], p);
    }
  }

  /** A filter nothing passes yields the empty sequence. */
  lemma {:induction false} FilterDropsAll<T>(xs: seq<T>, p: T -> bool)
    requires forall x :: x in xs ==> !p(x)
    ensures Filter(xs, p) == []
  {
    if xs != [] {
      assert xs[0] in xs;
      forall x | x in xs[1..] ensures !p(x) {
        assert x in xs;
      }
      FilterDropsAll(xs[1..], p);
    }
  }

  /** Filtering keeps every copy of an element that passes and no copy of one
      that does not. */
  lemma {:induction false} FilterCount<T>(xs: seq<T>, p: T -> bool)
    ensures forall x :: multiset(Filter(xs, p))[x] == if p(x) then multiset(xs)[x] else 0
  {
    if xs != [] {
      FilterCount(xs[1..], p);
      assert xs == [xs[0]] + xs[1..];
      assert multiset(xs) == multiset{xs[0]} + multiset(xs[1..]);
      var head := if p(xs[0]) then [xs[0]] else [];
      assert Filter(xs, p) == head + Filter(xs[1..], p);
      assert multiset(Filter(xs, p)) == multiset(head) + multiset(Filter(xs[1..], p));
    }
  }
}

=== FILE: session.dfy ===
/** A run of one `StorageService` instance: the operations callers can make,
    applied one after another to the shared state, with the invariants every
    run keeps and the isolation between the news cache, the favorites and the
    settings. */
module Session {
  import opened Wrappers
  import opened Keyed
  import opened Records
  import opened Json
  import opened Store
  import opened NewsCache
  import opened Favorites
  import opened Settings

  /** One public call on the service; `InitializeOp` is the constructor's
      `initializeDatabase`. The private `removeExpiredNews` is not a call of
      its own: it runs inside the SQLite `cacheNews` and `getCachedNews`. */
  datatype Op =
    | InitializeOp(probe: Probe)
    | CacheNewsOp(news: seq<Article>, category: string, minutes: int, now: int, mirrorWritten: bool)
    | GetCachedNewsOp(category: string, now: int)
    | ClearCacheOp
    | SaveFavoriteOp(article: Article, now: int)
    | RemoveFavoriteOp(id: string)
    | SaveSettingsOp(id: string, value: Value)

  predicate IsNewsOp(op: Op) {
    op.CacheNewsOp? || op.GetCachedNewsOp? || op.ClearCacheOp?
  }

  /** The state after one call. Every public call but `initializeDatabase`
      first waits for `isDbReady`, so it needs a ready store. */
  function Apply(c: Codec, st: Store, op: Op): (st': Store)
    requires st.ready || op.InitializeOp?
    ensures st'.ready
    ensures !op.InitializeOp? ==> st'.backend == st.backend && st'.dbOpen == st.dbOpen
  {
    match op
    case InitializeOp(probe) => Initialize(st, probe)
    case CacheNewsOp(news, category, minutes, now, mirrorWritten) => CacheNews(st, news, category, minutes, now, mirrorWritten).store
    case GetCachedNewsOp(category, now) => GetCachedNews(st, category, now).store
    case ClearCacheOp => ClearCache(st).store
    case SaveFavoriteOp(article, now) => SaveFavorite(st, article, now).store
    case RemoveFavoriteOp(id) => RemoveFavorite(st, id).store
    case SaveSettingsOp(id, value) => SaveSettings(st, id, value, c).store
  }

  /** A run may start before initialization only with the initialization. */
  predicate CanRun(st: Store, ops: seq<Op>) {
    st.ready || (|ops| > 0 && ops[0].InitializeOp?)
  }

  /** The calls applied in order. `isDbReady` latches: once set, no later call
      clears it. */
  function Run(c: Codec, st: Store, ops: seq<Op>): (st': Store)
    requires CanRun(st, ops)
    ensures st'.ready
    ensures (forall i :: 0 <= i < |ops| ==> !ops[i].InitializeOp?) ==> st'.backend == st.backend && st'.dbOpen == st.dbOpen
    decreases |ops|
  {
    if ops == [] then st
    else Run(c, Apply(c, st, ops[0]), ops[1..])
  }

  /** What the tables and the memory maps keep across every call: at most one
      news row per url, and only rows that have one; at most one favorite per
      key in the memory map; at most one favorite per non-null id in the
      table. */
  ghost predicate Wellformed(st: Store) {
    && KeyUnique(st.newsTable, NewsKey)
    && (forall x :: x in st.newsTable ==> Present(NewsKey(x)))
    && KeyUnique(st.memFavorites, FavoriteKey)
    && SqlKeyUnique(st.favoritesTable)
  }

  /** A first start on a device with nothing stored is well formed and not
      ready. */
  lemma FirstStart()
    ensures !Fresh(map[], [], [], map[]).ready
    ensures Wellformed(Fresh(map[], [], [], map[]))
  {
    var st := Fresh(map[], [], [], map[]);
    forall u ensures Count(st.favoritesTable, FavoriteKey, Some(u)) <= 1 {
    }
  }

  lemma CacheNewsPreserves(st: Store, news: seq<Article>, category: string, minutes: int, now: int, mirrorWritten: bool)
    requires st.ready && Wellformed(st)
    ensures Wellformed(CacheNews(st, news, category, minutes, now, mirrorWritten).store)
  {
    var r := CacheNews(st, news, category, minutes, now, mirrorWritten).store;
    if st.backend == Sqlite && st.dbOpen && |news| > 0 {
      var swept := RemoveExpiredNews(st, Some(category), now).newsTable;
      forall k ensures Count(r.newsTable, NewsKey, k) <= 1 {
        assert Count(swept, NewsKey, k) <= Count(st.newsTable, NewsKey, k);
      }
      forall x | x in r.newsTable ensures Present(NewsKey(x)) {
        if x !in st.newsTable {
          var a :| a in news && Present(a.url) && x == Row(a, category, now, ExpirationTime(now, minutes));
        }
      }
    }
  }

  lemma RemoveExpiredPreserves(st: Store, scope: Option<string>, now: int)
    requires Wellformed(st)
    ensures Wellformed(RemoveExpiredNews(st, scope, now))
  {
    var r := RemoveExpiredNews(st, scope, now);
    if st.backend == Sqlite && st.dbOpen {
      forall k ensures Count(r.newsTable, NewsKey, k) <= 1 {
        assert Count(r.newsTable, NewsKey, k) <= Count(st.newsTable, NewsKey, k);
      }
    }
  }

  lemma SaveFavoritePreserves(st: Store, a: Article, now: int)
    requires st.ready && Wellformed(st)
    ensures Wellformed(SaveFavorite(st, a, now).store)
  {
    var r := SaveFavorite(st, a, now).store;
    if st.backend == Web {
      forall k ensures Count(r.memFavorites, FavoriteKey, k) <= 1 {
        assert Count(st.memFavorites, FavoriteKey, k) <= 1;
      }
    } else if SaveFavorite(st, a, now).result {
      forall u ensures Count(r.favoritesTable, FavoriteKey, Some(u)) <= 1 {
        assert Count(st.favoritesTable, FavoriteKey, Some(u)) <= 1;
      }
    }
  }

  lemma RemoveFavoritePreserves(st: Store, id: string)
    requires st.ready && Wellformed(st)
    ensures Wellformed(RemoveFavorite(st, id).store)
  {
    var r := RemoveFavorite(st, id).store;
    if st.backend == Web {
      forall k ensures Count(r.memFavorites, FavoriteKey, k) <= 1 {
        assert Count(st.memFavorites, FavoriteKey, k) <= 1;
      }
    } else if st.dbOpen {
      forall u ensures Count(r.favoritesTable, FavoriteKey, Some(u)) <= 1 {
        assert Count(st.favoritesTable, FavoriteKey, Some(u)) <= 1;
      }
    }
  }

  /** Every call keeps the store well formed. */
  lemma ApplyPreserves(c: Codec, st: Store, op: Op)
    requires st.ready || op.InitializeOp?
    requires Wellformed(st)
    ensures Wellformed(Apply(c, st, op))
  {
    match op
    case InitializeOp(probe) =>
    case CacheNewsOp(news, category, minutes, now, mirrorWritten) =>
      CacheNewsPreserves(st, news, category, minutes, now, mirrorWritten);
    case GetCachedNewsOp(category, now) =>
      if st.backend == Sqlite {
        RemoveExpiredPreserves(st, Some(category), now);
      }
    case ClearCacheOp =>
    case SaveFavoriteOp(article, now) =>
      SaveFavoritePreserves(st, article, now);
    case RemoveFavoriteOp(id) =>
      RemoveFavoritePreserves(st, id);
    case SaveSettingsOp(id, value) =>
  }

  /** Every run keeps the store well formed. */
  lemma {:induction false} RunPreserves(c: Codec, st: Store, ops: seq<Op>)
    requires CanRun(st, ops)
    requires Wellformed(st)
    ensures Wellformed(Run(c, st, ops))
    decreases |ops|
  {
    if ops != [] {
      ApplyPreserves(c, st, ops[0]);
      RunPreserves(c, Apply(c, st, ops[0]), ops[1..]);
    }
  }

  /** The news calls, `clearCache` included, leave the favorites and the
      settings as they were. */
  lemma NewsOpsIsolated(c: Codec, st: Store, op: Op)
    requires st.ready && IsNewsOp(op)
    ensures var st' := Apply(c, st, op);
            && Visible(st') == Visible(st)
            && (forall id :: IsFavorite(st', id) == IsFavorite(st, id))
            && GetFavorites(st') == GetFavorites(st)
            && forall id :: GetSettings(st', id, c) == GetSettings(st, id, c)
  {
    var st' := Apply(c, st, op);
    match op
    case CacheNewsOp(news, category, minutes, now, mirrorWritten) =>
      SameFavoritesAndSettings(c, st, st');
    case GetCachedNewsOp(category, now) =>
      SameFavoritesAndSettings(c, st, st');
    case ClearCacheOp =>
      SameFavoritesAndSettings(c, st, st');
  }

  /** Two ready stores on the same backend whose favorites and settings agree
      answer every favorites and settings read alike. */
  lemma SameFavoritesAndSettings(c: Codec, st: Store, st': Store)
    requires st.ready && st'.ready
    requires st'.backend == st.backend && st'.dbOpen == st.dbOpen
    requires st'.memFavorites == st.memFavorites && st'.favoritesTable == st.favoritesTable
    requires st'.memSettings == st.memSettings && st'.settingsTable == st.settingsTable
    ensures Visible(st') == Visible(st)
    ensures forall id :: IsFavorite(st', id) == IsFavorite(st, id)
    ensures GetFavorites(st') == GetFavorites(st)
    ensures forall id :: GetSettings(st', id, c) == GetSettings(st, id, c)
  {
  }

  /** The favorites and settings calls leave every news read as it was. */
  lemma OtherOpsKeepNews(c: Codec, st: Store, op: Op, category: string, now: int)
    requires st.ready && !IsNewsOp(op) && !op.InitializeOp?
    ensures GetCachedNews(Apply(c, st, op), category, now).result == GetCachedNews(st, category, now).result
  {
    var st' := Apply(c, st, op);
    match op
    case SaveFavoriteOp(article, t) =>
      SameNewsSameReads(st, st', category, now);
    case RemoveFavoriteOp(id) =>
      SameNewsSameReads(st, st', category, now);
    case SaveSettingsOp(id, value) =>
      SameNewsSameReads(st, st', category, now);
  }

  /** Two ready stores on the same backend whose news state agrees answer
      every news read alike. */
  lemma SameNewsSameReads(st: Store, st': Store, category: string, now: int)
    requires st.ready && st'.ready
    requires st'.backend == st.backend && st'.dbOpen == st.dbOpen
    requires st'.memNews == st.memNews && st'.mirror == st.mirror && st'.newsTable == st.newsTable
    ensures GetCachedNews(st', category, now).result == GetCachedNews(st, category, now).result
  {
  }

  /** Favorites calls leave the settings alone, and settings calls leave the
      favorites alone. */
  lemma FavoritesSettingsIsolated(c: Codec, st: Store, op: Op)
    requires st.ready
    ensures op.SaveFavoriteOp? || op.RemoveFavoriteOp? ==>
      forall id :: GetSettings(Apply(c, st, op), id, c) == GetSettings(st, id, c)
    ensures op.SaveSettingsOp? ==> Visible(Apply(c, st, op)) == Visible(st)
  {
  }
}

=== FILE: settings.dfy ===
/** The settings of `StorageService`: `saveSettings` and `getSettings`, one
    value per id, last write wins. */
module Settings {
  import opened Wrappers
  import opened Json
  import opened Store

  /** The text SQLite stores: objects (and `null`, whose `typeof` is
      `'object'`) go through `JSON.stringify`, other values through
      `String(value)`. For booleans and integers `String` and
      `JSON.stringify` give the same text; a string is stored as itself. */
  function SettingText(c: Codec, v: Value): string {
    match v
    case Str(s) => s
    case _ => c.stringify(v)
  }

  /** What SQLite's `getSettings` returns for a stored text: its JSON parse,
      or the text itself when it does not parse. */
  function ReadSetting(c: Codec, text: string): Value {
    match c.parse(text)
    case Some(w) => w
    case None => Str(text)
  }

  /** `saveSettings(id, value)`. */
  function SaveSettings(st: Store, id: string, v: Value, c: Codec): (r: Step<bool>)
    requires st.ready
    ensures r.result <==> Usable(st)
    ensures !r.result ==> r.store == st
    ensures st.backend == Web ==> r.store == st.(memSettings := st.memSettings[id := v])
    ensures st.backend == Sqlite && st.dbOpen ==> r.store == st.(settingsTable := st.settingsTable[id := SettingText(c, v)])
  {
    match st.backend
    case Web => Step(st.(memSettings := st.memSettings[id := v]), true)
    case Sqlite =>
      if st.dbOpen then Step(st.(settingsTable := st.settingsTable[id := SettingText(c, v)]), true)
      else Step(st, false)
  }

  /** `getSettings(id)`. In the browser a falsy stored value reads back as
      `null` (`get(id) || null`); on SQLite the stored text is parsed when it
      can be. A missing id, or a broken connection, gives `null`. */
  function GetSettings(st: Store, id: string, c: Codec): (v: Value)
    requires st.ready
    ensures st.backend == Web ==> (v != Null ==> id in st.memSettings && st.memSettings[id] == v && Truthy(v))
    ensures st.backend == Web && id in st.memSettings && Truthy(st.memSettings[id]) ==> v == st.memSettings[id]
    ensures st.backend == Sqlite && st.dbOpen && id in st.settingsTable ==>
      v == match c.parse(st.settingsTable[id]) case Some(w) => w case None => Str(st.settingsTable[id])
    ensures !Stored(st, id) ==> v == Null
  {
    match st.backend
    case Web => if id in st.memSettings && Truthy(st.memSettings[id]) then st.memSettings[id] else Null
    case Sqlite => if st.dbOpen && id in st.settingsTable then ReadSetting(c, st.settingsTable[id]) else Null
  }

  /** The active backend holds a value for `id`. */
  predicate Stored(st: Store, id: string) {
    match st.backend
    case Web => id in st.memSettings
    case Sqlite => st.dbOpen && id in st.settingsTable
  }

  /** In the browser a saved value reads back unless it is falsy, in which
      case it reads back as `null`. */
  lemma WebSettingsRoundTrip(st: Store, id: string, v: Value, c: Codec)
    requires st.ready && st.backend == Web
    ensures GetSettings(SaveSettings(st, id, v, c).store, id, c) == if Truthy(v) then v else Null
  {
  }

  /** On SQLite every non-string value JavaScript can hold, objects included,
      reads back as saved. */
  lemma SqliteSettingsRoundTrip(st: Store, id: string, v: Value, c: Codec)
    requires st.ready && st.backend == Sqlite && st.dbOpen
    requires Lawful(c)
    requires JsValue(v) && !v.Str?
    ensures GetSettings(SaveSettings(st, id, v, c).store, id, c) == v
  {
    assert c.parse(c.stringify(v)) == Some(v);
  }

  /** On SQLite a string reads back as stored when it is not JSON text, and as
      the parsed value when it is: saving the string `"5"` reads back the
      number 5. */
  lemma SqliteStringSetting(st: Store, id: string, s: string, c: Codec)
    requires st.ready && st.backend == Sqlite && st.dbOpen
    ensures c.parse(s).None? ==> GetSettings(SaveSettings(st, id, Str(s), c).store, id, c) == Str(s)
    ensures c.parse(s).Some? ==> GetSettings(SaveSettings(st, id, Str(s), c).store, id, c) == c.parse(s).value
    ensures Lawful(c) && s == c.stringify(Num(5)) ==> GetSettings(SaveSettings(st, id, Str(s), c).store, id, c) == Num(5)
  {
  }

  /** Last write wins: a second save to the same id hides the first, and a
      save never changes what another id reads. */
  lemma SettingsLastWriteWins(st: Store, id: string, v1: Value, v2: Value, other: string, c: Codec)
    requires st.ready
    requires other != id
    ensures var s1 := SaveSettings(st, id, v1, c).store;
            GetSettings(SaveSettings(s1, id, v2, c).store, id, c) == GetSettings(SaveSettings(st, id, v2, c).store, id, c)
    ensures GetSettings(SaveSettings(st, id, v1, c).store, other, c) == GetSettings(st, other, c)
  {
  }
}

=== FILE: sorting.dfy ===
/** Descending sorts, as used by `ORDER BY ... DESC` and by
    `Array.prototype.sort((a, b) => b.t - a.t)`, and the text order of SQLite's
    default BINARY collation. */
module Sorting {

  /** `geq` is total and transitive, so "sorted by `geq`" is meaningful. */
  ghost predicate TotalPreorder<T(!new)>(geq: (T, T) -> bool) {
    && (forall a, b :: geq(a, b) || geq(b, a))
    && (forall a, b, c :: geq(a, b) && geq(b, c) ==> geq(a, c))
  }

  /** Every element is `geq` every later element. */
  ghost predicate SortedDesc<T>(xs: seq<T>, geq: (T, T) -> bool) {
    forall i, j :: 0 <= i < j < |xs| ==> geq(xs[i], xs[j])
  }

  /** Places `x` in front of the first element it is `geq`; equal elements
      therefore keep their relative order. */
  function Insert<T>(x: T, ys: seq<T>, geq: (T, T) -> bool): (r: seq<T>)
    ensures multiset(r) == multiset(ys) + multiset{x}
  {
    if ys == [] then [x]
    else if geq(x, ys[0]) then [x] + ys
    else
      assert ys == [ys[0]] + ys[1..];
      [ys[0]] + Insert(x, ys[1..], geq)
  }

  /** Insertion sort, largest first. */
  function SortDesc<T>(xs: seq<T>, geq: (T, T) -> bool): (r: seq<T>)
    ensures multiset(r) == multiset(xs)
  {
    if xs == [] then []
    else
      assert xs == [xs[0]] + xs[1..];
      Insert(xs[0], SortDesc(xs[1..], geq), geq)
  }

  lemma {:induction false} InsertSorted<T(!new)>(x: T, ys: seq<T>, geq: (T, T) -> bool)
    requires TotalPreorder(geq)
    requires SortedDesc(ys, geq)
    ensures SortedDesc(Insert(x, ys, geq), geq)
  {
    if ys != [] && !geq(x, ys[0]) {
      InsertSorted(x, ys[1..], geq);
      var rest := Insert(x, ys[1..], geq);
      assert forall z :: z in rest ==> z == x || z in ys[1..] by {
        assert multiset(rest) == multiset(ys[1..]) + multiset{x};
        forall z | z in rest ensures z == x || z in ys[1..] {
          assert z in multiset(rest);
        }
      }
      forall j | 0 <= j < |rest| ensures geq(ys[0], rest[j]) {
        assert rest[j] in rest;
      }
    }
  }

  /** The sort is correct: its result is a permutation (the `ensures` of
      `SortDesc`) in descending order. */
  lemma {:induction false} SortDescSorted<T(!new)>(xs: seq<T>, geq: (T, T) -> bool)
    requires TotalPreorder(geq)
    ensures SortedDesc(SortDesc(xs, geq), geq)
  {
    if xs != [] {
      SortDescSorted(xs[1..], geq);
      InsertSorted(xs[0], SortDesc(xs[1..], geq), geq);
    }
  }

  /** `a >= b` in SQLite's BINARY collation: code point by code point, and a
      proper prefix sorts first. For Unicode scalar values this is the same
      order as comparing their UTF-8 bytes. */
  predicate TextGeq(a: string, b: string) {
    if b == [] then true
    else if a == [] then false
    else if a[0] != b[0] then a[0] > b[0]
    else TextGeq(a[1..], b[1..])
  }

  lemma {:induction false} TextGeqTotal(a: string, b: string)
    ensures TextGeq(a, b) || TextGeq(b, a)
  {
    if a != [] && b != [] && a[0] == b[0] {
      TextGeqTotal(a[1..], b[1..]);
    }
  }

  lemma {:induction false} TextGeqTransitive(a: string, b: string, c: string)
    requires TextGeq(a, b) && TextGeq(b, c)
    ensures TextGeq(a, c)
  {
    if c != [] && a != [] && b != [] && a[0] == b[0] && b[0] == c[0] {
      TextGeqTransitive(a[1..], b[1..], c[1..]);
    }
  }
}

=== FILE: store.dfy ===
/** The state of one `StorageService` instance: which backend was chosen at
    startup, the readiness flag, the in-memory maps used in the browser
    together with their `localStorage` mirror, and the three SQLite tables.
    Each operation reads only the part its backend owns. */
module Store {
  import opened Wrappers
  import opened Records
  import opened Json

  /** `isWeb` true / false. */
  datatype Backend = Web | Sqlite

  /** What startup finds: `platform.ready()` failing, a browser platform, or
      a native platform where opening the `ionic-news-db` connection and
      creating its tables either all succeeded or did not. */
  datatype Probe = PlatformFailed | Browser | Native(connected: bool)

  datatype Store = Store(
    backend: Backend,
    /** `isDbReady`. */
    ready: bool,
    /** The SQLite connection is open and its tables exist. */
    dbOpen: bool,
    /** `memoryCache.news`: category to its cached list. */
    memNews: map<string, seq<CachedNews>>,
    /** `localStorage`: category to its `news_<category>` slot; `None` is a
        slot whose text does not parse. */
    mirror: map<string, Option<Snapshot>>,
    /** `memoryCache.favorites`, in the Map's insertion order. */
    memFavorites: seq<Favorite>,
    /** `memoryCache.settings`. */
    memSettings: map<string, Value>,
    /** Table `news`, in row order. */
    newsTable: seq<CachedNews>,
    /** Table `favorites`, in row order. */
    favoritesTable: seq<Favorite>,
    /** Table `settings`: id to the stored text. */
    settingsTable: map<string, string>)

  /** The new state of a store operation together with what it returns. */
  datatype Step<T> = Step(store: Store, result: T)

  /** Whether the active backend's storage calls succeed. In the browser they
      always do; on SQLite only over an open connection, otherwise every call
      throws and the operation returns its fallback value. */
  predicate Usable(st: Store) {
    st.backend == Web || st.dbOpen
  }

  /** A freshly constructed service: not ready, `isWeb` still false, no memory
      contents; the device keeps `localStorage` and the database between runs. */
  function Fresh(mirror: map<string, Option<Snapshot>>, newsTable: seq<CachedNews>,
                 favoritesTable: seq<Favorite>, settingsTable: map<string, string>): (st: Store)
    ensures !st.ready && st.backend == Sqlite && !Usable(st)
    ensures st.memNews == map[] && st.memFavorites == [] && st.memSettings == map[]
    ensures st.mirror == mirror && st.newsTable == newsTable
    ensures st.favoritesTable == favoritesTable && st.settingsTable == settingsTable
  {
    Store(Sqlite, false, false, map[], mirror, [], map[], newsTable, favoritesTable, settingsTable)
  }

  /** A process restart: memory is lost, persisted data stays. */
  function Restart(st: Store): (st': Store)
    ensures !st'.ready && st'.memNews == map[] && st'.memFavorites == [] && st'.memSettings == map[]
    ensures st'.mirror == st.mirror && st'.newsTable == st.newsTable
    ensures st'.favoritesTable == st.favoritesTable && st'.settingsTable == st.settingsTable
  {
    Fresh(st.mirror, st.newsTable, st.favoritesTable, st.settingsTable)
  }

  /** `initializeDatabase`. The flag is set on every path, including the
      error path, and nothing clears it. A failure of `platform.ready()`
      happens before `isWeb` is assigned, so the backend stays as it was. */
  function Initialize(st: Store, probe: Probe): (st': Store)
    ensures st'.ready
    ensures st'.backend == (match probe
                            case PlatformFailed => st.backend
                            case Browser => Web
                            case Native(_) => Sqlite)
    ensures probe.Native? ==> (Usable(st') <==> probe.connected)
    ensures probe.PlatformFailed? ==> st' == st.(ready := true)
    ensures st' == st.(ready := true, backend := st'.backend, dbOpen := st'.dbOpen)
  {
    match probe
    case PlatformFailed => st.(ready := true)
    case Browser => st.(ready := true, backend := Web)
    case Native(connected) => st.(ready := true, backend := Sqlite, dbOpen := connected)
  }
}

=== FILE: wrappers.dfy ===
/** The Some/None datatype standing in for JavaScript's `undefined`/`null`. */
module Wrappers {

  datatype Option<+T> = None | Some(value: T) {

    /** The value, or `default` when absent (JavaScript's `x ?? default`). */
    function GetOr(default: T): T {
      match this
      case Some(v) => v
      case None => default
    }
  }
}
